=== FILE: README.md ===
# Flappy Bird training loop, modelled in Dafny

A model of the simulation inside `flappy_bird.py`. That file is a Flappy Bird
clone whose birds are flown by NEAT networks, one bird per genome of a
generation. The model covers four pieces:

- **Bird physics** (`physics.dfy`, module `Physics`): the per-tick integrator
  of `Bird.move`. It computes the capped displacement `speed*t + 1.5*t^2`, adds
  the extra lift of 2 while climbing, and drives the tilt state machine. It
  also models `Bird.jump`.
- **Pipes** (`pipes.dfy`, module `Pipes`): gap placement (`set_height`) and
  scrolling (`move`).
- **Ground** (`ground.dfy`, module `Ground`): the two scrolling tiles of
  `Base`, with wrap-around.
- **The generation loop** (`population.dfy` and `game.dfy`, modules
  `Population` and `Game`):
  - the parallel lists `birds`, `nets` and `ge`, popped in lockstep;
  - Python's `for x, bird in enumerate(birds): ... birds.pop(x)`, modelled
    literally as `Population.Scan`. After a pop the index still advances, so
    the bird that slides into the vacated slot is not looked at in that pass.
    `Population.SkipAfterPop` and `Population.BothDoomedOneSurvives` state
    this;
  - fitness bookkeeping: +0.1 per tick alive, −1 per pipe collision, +5 for
    every live genome when a pipe is passed;
  - the `passed` flag and the score;
  - spawning and retiring pipes;
  - which pipe the networks look at;
  - one whole tick (`Game.Tick`), the initial world (`Game.Init`) and a run of
    ticks (`Game.Run`).

Representation choices:

- **Positions are exact.** Bird heights, speeds and displacements are `real`.
  Every constant the integrator uses is a multiple of 0.5 and the birds start
  at the integer 350, so the model is exact where the program uses floats.
  Tilt, columns and counters are `int`.
- **Fitness belongs to the genomes, not the lists.** It lives in a list
  `fitness` indexed by genome. `ge` holds genome indices, so a genome that has
  been popped keeps whatever its last update gave it, as the NEAT genome
  objects do in the program.
- **Parameters stand in for the pieces the program takes from libraries:**
  - the pixel-mask collision test is `collides(pipe, bird)`;
  - the network's answer `output[0] > 0.5` is `decide(net, observation)`;
  - the drawn gap height is `spawnHeight`, required to lie in [50, 450);
  - image sizes are the positive fields of `Game.Sprites`.

Fitness is applied in a different order from the program, in two places. The
final fitness values are the same.

- In the program, the +0.1 survival reward is interleaved with the moves in
  the first loop of a tick. In the model it is credited in one step, because
  no network sees fitness.
- In the program, the −1 for a collision happens just before the pop. In the
  model it is credited to the popped genomes after the collision loop.

`Game.WorldInv` is the invariant between ticks. It says:

- the lists are consistent;
- the genomes are in order;
- every bird is at column 230 with a reachable tilt;
- every pipe has its 200-pixel gap;
- the ground is seamless;
- while a bird lives, the newest pipe is neither passed nor more than one step
  behind the birds.

`Game.Init` establishes the invariant and `Game.TickKeepsInvariant` preserves
it. In particular, `pipes[pipe_ind]` is always defined while birds are alive.

## Model

| member | source | states |
|---|---|---|
| Physics.NewBird | flappy_bird.py:32-41 | a new bird is at the given position with the jump baseline at that height, tick counter and speed 0, and level (tilt 0) |
| Physics.Jump | flappy_bird.py:44-47 | a jump sets speed −10.5, tick counter 0 and baseline to the current height, and leaves position and tilt alone |
| Physics.Displacement | flappy_bird.py:52-56 | the applied displacement never exceeds 16; it is negative exactly when the formula is; a negative one is the formula minus 2, hence below −2; below the cap a non-negative one is the formula itself, and from the cap on it is exactly 16 |
| Physics.Move | flappy_bird.py:50-65 | the tick counter goes up by exactly 1 and the bird moves by the displacement for the new count; a tick moves the bird down at most 16 and any upward move is more than 2; nose up to 25 while climbing or less than 50 below the baseline, otherwise down by 20 only while above −90; the tilt range (−110, 25] is preserved |
| Physics.Step | flappy_bird.py:226-232 | one bird's turn in the first loop: the height and tilt are those of one move, a jump afterwards only resets speed, counter and baseline, and without a jump the turn is exactly one move; the column never changes and the tilt range is preserved |
| Physics.JumpThenMove | flappy_bird.py:44-57 | the first move after a jump lifts the bird by exactly 11, sets the counter to 1 and raises the nose to 25 |
| Physics.AscentAfterJump | flappy_bird.py:52-56 | after a jump the bird rises on ticks 1 to 6 and on no later tick |
| Physics.RestDisplacementMonotone | flappy_bird.py:52-54 | from speed 0 the displacement never decreases as the tick counter grows |
| Physics.RestDisplacementSaturates | flappy_bird.py:52-54 | from speed 0 the displacement is the cap 16 from the fourth tick on |
| Physics.CoastFromRest | flappy_bird.py:36-57 | a bird that never jumps counts its ticks, keeps speed 0 and moves by the rest displacement of each tick |
| Physics.FallAccelerates | flappy_bird.py:50-57 | a bird that never jumps falls at least as far each tick as the tick before, and exactly 16 from its fourth tick on |
| Physics.FlightKeepsTilt | flappy_bird.py:59-65 | no sequence of moves and jumps takes the tilt out of (−110, 25] |
| Pipes.SetHeight | flappy_bird.py:113-116 | the gap top is the drawn height in [50, 450); the gap bottom is 200 below it; the upper image ends at the gap top; column and `passed` are unchanged |
| Pipes.NewPipe | flappy_bird.py:102-110 | a new pipe is at the given column, not passed, with a well-formed gap |
| Pipes.Move | flappy_bird.py:119-120 | scrolling moves the pipe 5 left and changes nothing else, so the gap stays well formed |
| Pipes.ScrollKeepsGap | flappy_bird.py:99-120 | after n ticks a pipe is 5n further left with the same gap and `passed` flag |
| Ground.NewBase | flappy_bird.py:148-151 | new ground has its tiles at 0 and at one width, which is seamless |
| Ground.Move | flappy_bird.py:154-160 | each tile slides 5 left or is re-placed one width behind the other; for tiles wider than 5 a tile wraps exactly when its right edge has passed the left border, the ground stays seamless and at most one tile wraps |
| Ground.ScrollKeepsSeamless | flappy_bird.py:148-160 | ground that starts seamless stays seamless for any number of ticks |
| Population.RemoveAt | flappy_bird.py:241-243 | a pop removes exactly slot i: earlier slots are kept, later slots shift down by one, and the contents lose exactly that one element |
| Population.Pop | flappy_bird.py:241-243 | popping all three lists at the same slot keeps them the same length and removes exactly that slot's genome |
| Population.Credit | flappy_bird.py:252-255 | every genome's fitness changes by the amount times the number of its occurrences in the list; unlisted genomes keep their fitness |
| Population.Scan | flappy_bird.py:238-243 | the enumerate-with-pop loop keeps the lists in lockstep; exactly one element per reported genome leaves; survivors and looked-at birds come from the original list; the loop looks at the bird in its start slot first |
| Population.ScanAccounts | flappy_bird.py:238-243 | one genome is reported per doomed bird looked at, and the genomes left plus those reported are exactly the genomes before |
| Population.ScanKeepsPrefix | flappy_bird.py:238-243 | a pass never touches the slots before its start index |
| Population.SkipAfterPop | flappy_bird.py:238-243 | after a pop the next bird slides into the vacated slot and is not looked at: the pass looks at the bird two slots further on next |
| Population.BothDoomedOneSurvives | flappy_bird.py:262-266 | two adjacent birds that both meet the removal test: only the first is removed, and the second survives the pass |
| Population.ScanCulprits | flappy_bird.py:238-243 | every bird left after a pass is one that played the same genome before, and every reported genome played a bird that met the removal test |
| Population.ScanHarmless | flappy_bird.py:238-243 | when no bird from the start slot on meets the removal test, a pass removes and reports nothing |
| Population.ScanSkipsSafe | flappy_bird.py:238-243 | a pass walks past birds that do not meet the removal test without changing anything, so it ends as a pass started after them |
| Population.ScanRemovesFirst | flappy_bird.py:238-243 | the first bird in the list that meets the removal test is always looked at and popped: its genome is the first one reported and, with each genome listed once, it no longer plays |
| Population.ScanKeepsPairing | flappy_bird.py:238-243 | a pass keeps every network next to its own genome and the genomes in their original order |
| Population.IncreasingOnce | flappy_bird.py:193-198 | genomes listed in strictly increasing order occur at most once each |
| Game.Observe | flappy_bird.py:229-230 | the network sees the height and its distance to the gap top and to the gap bottom, each the edge minus the height or the height minus the edge, whichever side of that edge the bird is on; the two add up to at least the gap, and exactly to the gap when the bird is level with the opening |
| Game.FlyBird | flappy_bird.py:227-232 | a bird's turn moves it first, shows the network the moved bird against the observed pipe, and jumps exactly when the network says so |
| Game.PipeIndex | flappy_bird.py:217-220 | the observed pipe is the second exactly when there are at least two pipes and the leading bird is past the first one's right edge, otherwise the first |
| Game.FlyAll | flappy_bird.py:226-232 | the first loop gives each bird its own turn in order, with its own network |
| Game.ScanPipes | flappy_bird.py:237-246 | the collision loop keeps the lists in lockstep and the pipes in place; it may only set `passed`, never clear it; as many birds leave as genomes are reported |
| Game.Advance | flappy_bird.py:248-259 | no pipe is added; the newest pipe survives, scrolled, when it was on screen |
| Game.AdvanceMembers | flappy_bird.py:248-259 | the pipes kept are exactly the scrolled pipes that were on screen before scrolling |
| Game.ScanPipesAccounts | flappy_bird.py:237-243 | the genomes left plus the genomes popped by collisions are exactly the genomes before |
| Game.ScanPipesCulprits | flappy_bird.py:237-243 | every bird left after the collision loop played the same genome before, and every popped genome played a bird that collides with one of the pipes |
| Game.ScanPipesHarmless | flappy_bird.py:237-243 | when no bird collides with any pipe, the collision loop removes and reports nothing |
| Game.PipePhaseCulprits | flappy_bird.py:237-243 | every genome dropped in the pipe part of a tick played a bird that collides with one of the pipes, and with no collision the players are unchanged |
| Game.ScanPipesRemovesFirst | flappy_bird.py:237-243 | the first bird that collides with the first pipe is popped: its genome is the first one reported and, with each genome listed once, it no longer plays after the collision loop |
| Game.ScanPipesKeepsPairing | flappy_bird.py:237-243 | the collision loop keeps every network next to its genome and the genomes in order |
| Game.ScanPipesAtColumn | flappy_bird.py:244-246 | with all birds in one column, a pipe is marked passed only if it is left of that column; if any bird survives the loop, every such pipe is marked |
| Game.FlyPhase | flappy_bird.py:226-232 | the first loop gives each bird the turn its own network decides, credits every genome 0.1 per slot it plays in, and keeps the lists, columns, pipes, ground and score, and every reachable tilt reachable |
| Game.PipePhase | flappy_bird.py:234-259 | the score goes up by at most 1; only on a scoring tick is a pipe added, and it is a new pipe at 600; survivors and their genomes come from before |
| Game.GroundPhase | flappy_bird.py:262-266 | the boundary loop only removes players, without touching fitness, pipes, ground or score |
| Game.OutOfBounds | flappy_bird.py:263 | a bird is out of bounds exactly when it is not between the top border 0 and the floor 730 less its height |
| Game.GroundPhaseRemovesFirst | flappy_bird.py:262-266 | the first bird that is out of bounds is removed: with each genome listed once, its genome no longer plays after the boundary loop |
| Game.GroundPhaseCulprits | flappy_bird.py:262-266 | every genome the boundary loop removes played a bird that was out of bounds, and when no bird is out of bounds the loop changes nothing |
| Game.Tick | flappy_bird.py:216-268 | the loop ends exactly when no bird is left, and then nothing changes; no bird is added; the score rises by 0 or 1, and on a rise the newest pipe is a fresh pipe at 600; at most one pipe is added |
| Game.TickBirds | flappy_bird.py:216-232 | every bird alive after a tick is the turn its own player took: moved, shown the pipe that `PipeIndex` picks for the leading bird, and jumped exactly when its network said so |
| Game.FlyPhaseKeeps | flappy_bird.py:226-232 | the first loop preserves the invariant between ticks |
| Game.PipePhaseKeeps | flappy_bird.py:234-259 | the pipe part of a tick preserves the invariant: while a bird is alive, either a point was scored and the new pipe at 600 is last, or no point was scored and the old last pipe, scrolled one step, is last |
| Game.GroundPhaseKeeps | flappy_bird.py:262-266 | the boundary loop preserves the invariant |
| Game.AdvanceKeepsGap | flappy_bird.py:248-259 | pipes kept after scrolling still have their well-formed gap |
| Game.TickKeepsInvariant | flappy_bird.py:216-268 | every tick preserves the invariant, so the observed pipe always exists while birds are alive |
| Game.Init | flappy_bird.py:193-202 | the start of a generation: one bird at (230, 350) per network, paired with its genome, all fitness 0, one pipe at 600, ground at height 730 with its tiles at 0 and at one tile width, score 0, and the invariant holds |
| Game.Run | flappy_bird.py:207-268 | any number of ticks keeps the invariant, never adds birds, and raises the score by at most one per tick; with no birds, nothing happens |
| Game.TickKeepsPairing | flappy_bird.py:238-266 | a whole tick keeps every network next to its genome |
| Game.PhasesKeepPairing | flappy_bird.py:238-266 | the two popping loops keep every network next to its genome |
| Game.TickScore | flappy_bird.py:244-253 | a point is scored only for a pipe that was not passed and is left of the birds; if any bird lives through the tick, any such pipe does score |
| Game.PipePhaseFitness | flappy_bird.py:238-255 | the pipe part of a tick leaves non-playing genomes alone, costs a popped genome exactly 1, and gives a surviving genome 5 exactly on a scoring tick |
| Game.TickFitness | flappy_bird.py:226-266 | a non-playing genome keeps its fitness; a genome playing after the tick gains 0.1 plus 5 on a scoring tick; a genome that dropped out gains 0.1 − 1 or 0.1 + 5 on a scoring tick, and 0.1 − 1 or 0.1 otherwise |
| Game.PipePhaseOrigins | flappy_bird.py:244-259 | every pipe after the pipe part is the new one on a scoring tick, or an on-screen pipe scrolled one step with the same gap and its `passed` flag kept |
| Game.PipePhaseKeepsPassed | flappy_bird.py:244-259 | a passed pipe stays in the list, scrolled, until it leaves the screen |
| Game.TickPipes | flappy_bird.py:244-259 | over a whole tick, each pipe is the new one or a scrolled on-screen old one whose `passed` flag is never cleared, so each pipe flips to passed at most once; passed pipes stay until they leave the screen |

## Left out

- Drawing and animation are not modelled: `Bird.draw`, `Pipe.draw`, `Base.draw`, `draw_window`, fonts, image loading, `img_count` and the frame cycling. The simulation never reads them back, apart from the image sizes and the collision test.
- `Pipe.collide` and `Bird.get_mask` are the parameter `collides(pipe, bird)`. The pixel masks come from a foreign library. A bird's mask also depends on its animation frame, which is not part of the model, so any predicate over pipe and bird state is admitted.
- The NEAT library is not modelled. Network creation, `activate`, `run`, `neat.Population` and the reporters become the generic network type `N` and the parameter `decide`.
- `random.randrange(50, 450)` is the `spawnHeight` argument, required to lie in [50, 450). `Game.Run` takes one such value per tick. The value is used only on a tick that spawns a pipe.
- The event loop, `clock.tick`, the QUIT handling and the `GEN` counter are I/O or state without logic, so they are not modelled.
- Image sizes are the `Game.Sprites` parameters. The bird's image height is taken as one constant because all three frames have the same size. The ground tile is required to be wider than its 5-pixel step.
- Floating-point rounding is not modelled: fitness and heights are exact reals. In the program, repeated additions of 0.1 round, and the model does not.
- Game.Tick: requires at least one pipe when birds are alive. Without a pipe the program would fail indexing `pipes[pipe_ind]`. `Game.TickKeepsInvariant` shows this never happens from `Game.Init`.
- Game.TickScore: states "any such pipe scores" only when some bird survives the whole tick. It stays silent when the last birds leave in the boundary loop after scoring.
- Game.GroundPhase: does not promise that survivors are inside the field. The skip after a pop lets an out-of-bounds bird through to the next tick, as in the program. `Game.GroundPhaseRemovesFirst` states what is promised: the first out-of-bounds bird is always removed.

=== FILE: game.dfy ===
/**
 One generation of the game as the training loop runs it: every tick moves
 the birds under their networks' control, resolves collisions against every
 pipe, scores passed pipes, spawns and retires pipes, drops birds that left
 the play field and scrolls the ground.

 Collision (a per-pixel mask overlap) and the networks' decision are
 parameters: `collides(pipe, bird)` and `decide(net, observation)`, the
 latter standing for "the network's first output is above 0.5". The random
 gap height of a pipe spawned during a tick is the parameter `spawnHeight`.
 */
module Game {
  import opened Physics
  import Pipes
  import Ground
  import opened Population

  /** Column of every bird. */
  const BIRD_X: int := 230
  /** Starting height of every bird. */
  const BIRD_Y: real := 350.0
  /** Column at which new pipes appear. */
  const PIPE_SPAWN_X: int := 600
  /** Height of the ground; a bird whose image reaches below it is out. */
  const FLOOR: int := 730
  /** Fitness gained by every live bird on every tick. */
  const SURVIVAL_REWARD: real := 0.1
  /** Fitness gained by every live bird when a pipe is passed. */
  const PASS_BONUS: real := 5.0

  /** Sizes of the images the game measures: the pipe image's width and
      height, a bird image's height and the ground image's width. */
  datatype Sprites = Sprites(pipeWidth: int, pipeHeight: int, birdHeight: int, baseWidth: int)

  predicate ValidSprites(sp: Sprites)
  {
    sp.pipeWidth > 0 && sp.pipeHeight > 0 && sp.birdHeight > 0 && sp.baseWidth > Ground.BASE_VEL
  }

  /** Everything one generation keeps between ticks: the live players, the
      fitness of every genome of the generation, the pipes in spawn order,
      the ground and the score. */
  datatype World<N> = World(crowd: Crowd<N>, fitness: seq<real>, pipes: seq<Pipes.Pipe>, base: Ground.Base, score: int)

  /** What a network is shown: the bird's height and its distances to the
      top and to the bottom of the gap it is heading for. */
  datatype Observation = Observation(y: real, toTop: real, toBottom: real)

  function Abs(r: real): real
  {
    if r < 0.0 then -r else r
  }

  /** The observation of bird `b` facing pipe `p`. The two distances always
      add up to at least the gap, and exactly to the gap when the bird is
      level with the opening. */
  function Observe(b: Bird, p: Pipes.Pipe): (o: Observation)
    ensures o.y == b.y && o.toTop >= 0.0 && o.toBottom >= 0.0
    ensures p.height as real <= b.y ==> o.toTop == b.y - p.height as real
    ensures b.y <= p.height as real ==> o.toTop == p.height as real - b.y
    ensures b.y <= p.bottom as real ==> o.toBottom == p.bottom as real - b.y
    ensures p.bottom as real <= b.y ==> o.toBottom == b.y - p.bottom as real
    ensures p.bottom == p.height + Pipes.GAP ==>
              o.toTop + o.toBottom >= Pipes.GAP as real
              && (o.toTop + o.toBottom == Pipes.GAP as real <==> p.height as real <= b.y <= p.bottom as real)
  {
    Observation(b.y, Abs(b.y - p.height as real), Abs(b.y - p.bottom as real))
  }

  /** Which pipe the birds look at: the second one once the leading bird is
      past the first one's right edge, the first one otherwise. */
  function PipeIndex(birds: seq<Bird>, pipes: seq<Pipes.Pipe>, width: int): (k: nat)
    requires |birds| > 0 && |pipes| > 0
    ensures k < |pipes|
    ensures k == 1 <==> |pipes| > 1 && birds[0].x > pipes[0].x + width
    ensures k == 0 || k == 1
  {
    if |pipes| > 1 && birds[0].x > pipes[0].x + width then 1 else 0
  }

  /** One bird's tick: move, then jump if its network says so, having seen
      its moved position relative to `target`. */
  function FlyBird<N>(b: Bird, net: N, target: Pipes.Pipe, decide: (N, Observation) -> bool): (r: Bird)
    ensures r.x == b.x
    ensures decide(net, Observe(Physics.Move(b), target)) ==> r == Jump(Physics.Move(b))
    ensures !decide(net, Observe(Physics.Move(b), target)) ==> r == Physics.Move(b)
    ensures TiltOk(b.tilt) ==> TiltOk(r.tilt)
    ensures r.y - b.y <= TERMINAL_DISPLACEMENT
  {
    Step(b, decide(net, Observe(Physics.Move(b), target)))
  }

  /** The first loop of a tick, over all birds in order. */
  function FlyAll<N>(birds: seq<Bird>, nets: seq<N>, target: Pipes.Pipe, decide: (N, Observation) -> bool): (r: seq<Bird>)
    requires |birds| == |nets|
    ensures |r| == |birds|
    ensures forall k :: 0 <= k < |r| ==> r[k] == FlyBird(birds[k], nets[k], target, decide)
    decreases |birds|
  {
    if |birds| == 0 then []
    else [FlyBird(birds[0], nets[0], target, decide)] + FlyAll(birds[1..], nets[1..], target, decide)
  }

  /** Some bird of `birds` is strictly to the right of column `x`. */
  predicate SomeAhead(x: int, birds: seq<Bird>)
  {
    exists k :: 0 <= k < |birds| && x < birds[k].x
  }

  /** The pipes after the collision loop, the players left and the genomes
      of the players it popped, in popping order. */
  datatype PipeScan<N> = PipeScan(pipes: seq<Pipes.Pipe>, crowd: Crowd<N>, culled: seq<nat>)

  /** The loop over the pipes: for each pipe in turn, an enumerate-with-pop
      pass over the players popping those colliding with it, marking the pipe
      passed once a bird the pass looks at is to its right. */
  function ScanPipes<N>(pipes: seq<Pipes.Pipe>, c: Crowd<N>, collides: (Pipes.Pipe, Bird) -> bool): (r: PipeScan<N>)
    requires Lockstep(c)
    ensures Lockstep(r.crowd)
    ensures |r.pipes| == |pipes|
    ensures forall j :: 0 <= j < |pipes| ==> r.pipes[j] == pipes[j].(passed := r.pipes[j].passed)
    ensures forall j :: 0 <= j < |pipes| ==> pipes[j].passed ==> r.pipes[j].passed
    ensures |r.crowd.birds| == |c.birds| - |r.culled|
    ensures forall b :: b in r.crowd.birds ==> b in c.birds
    decreases |pipes|
  {
    if |pipes| == 0 then PipeScan([], c, [])
    else
      var p := pipes[0];
      var s := Scan(c, 0, b => collides(p, b));
      var rest := ScanPipes(pipes[1..], s.crowd, collides);
      PipeScan([p.(passed := p.passed || SomeAhead(p.x, s.visited))] + rest.pipes, rest.crowd, s.culled + rest.culled)
  }

  /** Some pipe went from not passed to passed. */
  predicate Flipped(before: seq<Pipes.Pipe>, after: seq<Pipes.Pipe>)
  {
    exists j :: 0 <= j < |before| && j < |after| && !before[j].passed && after[j].passed
  }

  /** Scroll every pipe and drop those whose right edge was already off the
      screen before scrolling. */
  function Advance(pipes: seq<Pipes.Pipe>, width: int): (r: seq<Pipes.Pipe>)
    ensures |r| <= |pipes|
    ensures |pipes| > 0 && !Pipes.OffScreen(pipes[|pipes| - 1], width) ==>
              |r| > 0 && r[|r| - 1] == Pipes.Move(pipes[|pipes| - 1])
    decreases |pipes|
  {
    if |pipes| == 0 then []
    else
      var rest := Advance(pipes[1..], width);
      (if Pipes.OffScreen(pipes[0], width) then [] else [Pipes.Move(pipes[0])]) + rest
  }

  /** The pipes `Advance` keeps are exactly the on-screen ones, scrolled. */
  lemma {:induction false} AdvanceMembers(pipes: seq<Pipes.Pipe>, width: int)
    ensures forall p :: p in Advance(pipes, width) ==>
              exists q :: q in pipes && !Pipes.OffScreen(q, width) && p == Pipes.Move(q)
    ensures forall q :: q in pipes && !Pipes.OffScreen(q, width) ==> Pipes.Move(q) in Advance(pipes, width)
    decreases |pipes|
  {
    if |pipes| > 0 {
      var rest := Advance(pipes[1..], width);
      AdvanceMembers(pipes[1..], width);
      var r := Advance(pipes, width);
      assert r == (if Pipes.OffScreen(pipes[0], width) then [] else [Pipes.Move(pipes[0])]) + rest;
      forall p | p in r
        ensures exists q :: q in pipes && !Pipes.OffScreen(q, width) && p == Pipes.Move(q)
      {
        if p in rest {
          var q :| q in pipes[1..] && !Pipes.OffScreen(q, width) && p == Pipes.Move(q);
          assert q in pipes;
        } else {
          assert pipes[0] in pipes;
        }
      }
      forall q | q in pipes && !Pipes.OffScreen(q, width)
        ensures Pipes.Move(q) in r
      {
        if q != pipes[0] {
          assert pipes == [pipes[0]] + pipes[1..];
          assert q in pipes[1..];
        }
      }
    }
  }

  /** The last element of a non-empty list. */
  function Last<T>(s: seq<T>): T
    requires |s| > 0
  {
    s[|s| - 1]
  }

  /** The three parallel lists agree in length and every genome handle names
      an entry of the fitness list. */
  predicate Consistent<N>(w: World<N>)
  {
    Lockstep(w.crowd) && Handles(w.crowd.ge, w.fitness)
  }

  /** Lists whose contents, counted with multiplicity, add up to a list of
      valid genome handles hold valid genome handles themselves. */
  lemma SplitHandles(a: seq<nat>, b: seq<nat>, c: seq<nat>, fitness: seq<real>)
    requires multiset(a) + multiset(b) == multiset(c) && Handles(c, fitness)
    ensures Handles(a, fitness) && Handles(b, fitness)
    ensures forall g :: g in a ==> g in c
  {
    forall k | 0 <= k < |a|
      ensures a[k] < |fitness| && a[k] in c
    {
      assert a[k] in multiset(a);
      assert a[k] in multiset(c);
      var j :| 0 <= j < |c| && c[j] == a[k];
    }
    forall k | 0 <= k < |b|
      ensures b[k] < |fitness|
    {
      assert b[k] in multiset(b);
      assert b[k] in multiset(c);
      var j :| 0 <= j < |c| && c[j] == b[k];
    }
  }

  /** The collision loop reports exactly the genomes that left the lists. */
  lemma {:induction false} ScanPipesAccounts<N>(pipes: seq<Pipes.Pipe>, c: Crowd<N>, collides: (Pipes.Pipe, Bird) -> bool)
    requires Lockstep(c)
    ensures multiset(ScanPipes(pipes, c, collides).crowd.ge) + multiset(ScanPipes(pipes, c, collides).culled) == multiset(c.ge)
    decreases |pipes|
  {
    if |pipes| > 0 {
      var p := pipes[0];
      var doomed := b => collides(p, b);
      var s := Scan(c, 0, doomed);
      ScanAccounts(c, 0, doomed);
      ScanPipesAccounts(pipes[1..], s.crowd, collides);
      var rest := ScanPipes(pipes[1..], s.crowd, collides);
      assert multiset(s.culled + rest.culled) == multiset(s.culled) + multiset(rest.culled);
    }
  }

  /** The collision loop keeps every network next to its genome and the
      genomes in their original order. */
  lemma {:induction false} ScanPipesKeepsPairing<N>(pipes: seq<Pipes.Pipe>, c: Crowd<N>, collides: (Pipes.Pipe, Bird) -> bool, netOf: seq<N>)
    requires Lockstep(c)
    ensures Paired(c, netOf) ==> Paired(ScanPipes(pipes, c, collides).crowd, netOf)
    ensures Increasing(c.ge) ==> Increasing(ScanPipes(pipes, c, collides).crowd.ge)
    decreases |pipes|
  {
    if |pipes| > 0 {
      var p := pipes[0];
      var doomed := b => collides(p, b);
      ScanKeepsPairing(c, 0, doomed, netOf);
      ScanPipesKeepsPairing(pipes[1..], Scan(c, 0, doomed).crowd, collides, netOf);
    }
  }

  /** With every bird in column `x`, the collision loop keeps them there and
      marks a pipe passed only if it is left of `x`; if any bird survives the
      loop, it marks exactly the pipes left of `x`. */
  lemma {:induction false} ScanPipesAtColumn<N>(pipes: seq<Pipes.Pipe>, c: Crowd<N>, collides: (Pipes.Pipe, Bird) -> bool, x: int)
    requires Lockstep(c) && AllAt(c.birds, x)
    ensures AllAt(ScanPipes(pipes, c, collides).crowd.birds, x)
    ensures forall j :: 0 <= j < |pipes| ==>
              ScanPipes(pipes, c, collides).pipes[j].passed ==> pipes[j].passed || pipes[j].x < x
    ensures |ScanPipes(pipes, c, collides).crowd.birds| > 0 ==>
              forall j :: 0 <= j < |pipes| ==>
                ScanPipes(pipes, c, collides).pipes[j].passed == (pipes[j].passed || pipes[j].x < x)
    decreases |pipes|
  {
    var r := ScanPipes(pipes, c, collides);
    forall b | b in r.crowd.birds
      ensures b.x == x
    {
      assert b in c.birds;
    }
    if |pipes| > 0 {
      var p := pipes[0];
      var doomed := b => collides(p, b);
      var s := Scan(c, 0, doomed);
      forall b | b in s.crowd.birds
        ensures b.x == x
      {
        assert b in c.birds;
      }
      ScanPipesAtColumn(pipes[1..], s.crowd, collides, x);
      var rest := ScanPipes(pipes[1..], s.crowd, collides);
      assert r.pipes == [p.(passed := p.passed || SomeAhead(p.x, s.visited))] + rest.pipes;
      if SomeAhead(p.x, s.visited) {
        var k :| 0 <= k < |s.visited| && p.x < s.visited[k].x;
        assert s.visited[k] in c.birds;
      }
      if |r.crowd.birds| > 0 {
        assert |c.birds| > 0;
        assert s.visited[0] == c.birds[0];
        if p.x < x {
          assert SomeAhead(p.x, s.visited);
        }
      }
      forall j | 1 <= j < |pipes|
        ensures r.pipes[j] == rest.pipes[j - 1] && pipes[j] == pipes[1..][j - 1]
      {
      }
    }
  }

  /** First loop of a tick: every bird moves (and maybe jumps) and every
      live genome earns the survival reward. */
  function FlyPhase<N>(w: World<N>, target: Pipes.Pipe, decide: (N, Observation) -> bool): (r: World<N>)
    requires Consistent(w)
    ensures Consistent(r)
    ensures r.crowd.ge == w.crowd.ge && r.crowd.nets == w.crowd.nets && |r.crowd.birds| == |w.crowd.birds|
    ensures forall k :: 0 <= k < |r.crowd.birds| ==>
              r.crowd.birds[k] == FlyBird(w.crowd.birds[k], w.crowd.nets[k], target, decide)
    ensures forall k :: 0 <= k < |r.crowd.birds| ==> r.crowd.birds[k].x == w.crowd.birds[k].x
    ensures forall k :: 0 <= k < |r.crowd.birds| ==> TiltOk(w.crowd.birds[k].tilt) ==> TiltOk(r.crowd.birds[k].tilt)
    ensures r.pipes == w.pipes && r.base == w.base && r.score == w.score
    ensures |r.fitness| == |w.fitness|
    ensures forall g :: 0 <= g < |w.fitness| ==>
              r.fitness[g] == w.fitness[g] + Times(SURVIVAL_REWARD, multiset(w.crowd.ge)[g])
  {
    var birds := FlyAll(w.crowd.birds, w.crowd.nets, target, decide);
    w.(crowd := w.crowd.(birds := birds), fitness := Credit(w.fitness, w.crowd.ge, SURVIVAL_REWARD))
  }

  /** The pipe part of a tick: the collision loop (each collision costs the
      genome `CRASH_PENALTY`), then, if some pipe was passed, one point, the
      pass bonus for every live genome and one new pipe; finally off-screen
      pipes are dropped and the rest scroll. */
  function PipePhase<N>(w: World<N>, collides: (Pipes.Pipe, Bird) -> bool, sp: Sprites, spawnHeight: int): (r: World<N>)
    requires Consistent(w) && Pipes.ValidHeight(spawnHeight)
    ensures Consistent(r)
    ensures |r.crowd.birds| <= |w.crowd.birds| && |r.fitness| == |w.fitness|
    ensures forall b :: b in r.crowd.birds ==> b in w.crowd.birds
    ensures forall g :: g in r.crowd.ge ==> g in w.crowd.ge
    ensures r.base == w.base
    ensures r.score == w.score || r.score == w.score + 1
    ensures r.score == w.score + 1 ==>
              |r.pipes| > 0 && Last(r.pipes) == Pipes.NewPipe(PIPE_SPAWN_X, spawnHeight, sp.pipeHeight)
    ensures |r.pipes| <= |w.pipes| + (r.score - w.score)
  {
    var scan := ScanPipes(w.pipes, w.crowd, collides);
    ScanPipesAccounts(w.pipes, w.crowd, collides);
    SplitHandles(scan.crowd.ge, scan.culled, w.crowd.ge, w.fitness);
    var fit := Credit(w.fitness, scan.culled, -CRASH_PENALTY);
    var kept := Advance(scan.pipes, sp.pipeWidth);
    if Flipped(w.pipes, scan.pipes) then
      World(scan.crowd, Credit(fit, scan.crowd.ge, PASS_BONUS),
            kept + [Pipes.NewPipe(PIPE_SPAWN_X, spawnHeight, sp.pipeHeight)], w.base, w.score + 1)
    else
      World(scan.crowd, fit, kept, w.base, w.score)
  }

  /** A bird whose image reaches below the ground or whose top is above the
      screen. */
  predicate OutOfBounds(b: Bird, birdHeight: int)
    ensures !OutOfBounds(b, birdHeight) <==> 0.0 <= b.y <= (FLOOR - birdHeight) as real
  {
    b.y + birdHeight as real > FLOOR as real || b.y < 0.0
  }

  /** Last loop of a tick: an enumerate-with-pop pass dropping the birds that
      are out of bounds (no fitness change). */
  function GroundPhase<N>(w: World<N>, birdHeight: int): (r: World<N>)
    requires Consistent(w)
    ensures Consistent(r)
    ensures |r.crowd.birds| <= |w.crowd.birds|
    ensures forall b :: b in r.crowd.birds ==> b in w.crowd.birds
    ensures forall g :: g in r.crowd.ge ==> g in w.crowd.ge
    ensures r.fitness == w.fitness && r.pipes == w.pipes && r.base == w.base && r.score == w.score
  {
    var s := Scan(w.crowd, 0, b => OutOfBounds(b, birdHeight));
    ScanAccounts(w.crowd, 0, b => OutOfBounds(b, birdHeight));
    SplitHandles(s.crowd.ge, s.culled, w.crowd.ge, w.fitness);
    w.(crowd := s.crowd)
  }

  /** How a tick ends: the loop stops on a tick that finds no bird alive,
      otherwise it carries on with the new world. */
  datatype Outcome<N> = Over(world: World<N>) | Running(world: World<N>)

  /** One iteration of the game loop. */
  function Tick<N>(w: World<N>, sp: Sprites, decide: (N, Observation) -> bool,
                   collides: (Pipes.Pipe, Bird) -> bool, spawnHeight: int): (r: Outcome<N>)
    requires Consistent(w) && (|w.crowd.birds| > 0 ==> |w.pipes| > 0)
    requires Pipes.ValidHeight(spawnHeight)
    ensures r.Over? <==> |w.crowd.birds| == 0
    ensures r.Over? ==> r.world == w
    ensures Consistent(r.world) && |r.world.fitness| == |w.fitness|
    ensures |r.world.crowd.birds| <= |w.crowd.birds|
    ensures r.world.score == w.score || r.world.score == w.score + 1
    ensures r.world.score == w.score + 1 ==>
              |r.world.pipes| > 0 && Last(r.world.pipes) == Pipes.NewPipe(PIPE_SPAWN_X, spawnHeight, sp.pipeHeight)
    ensures |r.world.pipes| <= |w.pipes| + (r.world.score - w.score)
  {
    if |w.crowd.birds| == 0 then Over(w)
    else
      var target := w.pipes[PipeIndex(w.crowd.birds, w.pipes, sp.pipeWidth)];
      var flown := FlyPhase(w, target, decide);
      var piped := PipePhase(flown, collides, sp, spawnHeight);
      var grounded := GroundPhase(piped, sp.birdHeight);
      Running(grounded.(base := Ground.Move(grounded.base, sp.baseWidth)))
  }

  /** What holds between ticks of a generation: consistent lists, genomes
      in their original order, every bird in its column with a reachable
      tilt, every pipe with its 200-pixel gap, seamless ground, and, while
      any bird is alive, a last pipe that is not passed yet and not behind
      the birds by more than one step. */
  predicate WorldInv<N>(w: World<N>, sp: Sprites)
  {
    && Consistent(w)
    && Increasing(w.crowd.ge)
    && AllAt(w.crowd.birds, BIRD_X)
    && (forall b :: b in w.crowd.birds ==> TiltOk(b.tilt))
    && (forall p :: p in w.pipes ==> Pipes.WellFormed(p, sp.pipeHeight))
    && Ground.Seamless(w.base, sp.baseWidth)
    && (|w.crowd.birds| > 0 ==> LeadPipeAhead(w.pipes))
  }

  /** The newest pipe is not passed and is at most one step left of the birds. */
  predicate LeadPipeAhead(pipes: seq<Pipes.Pipe>)
  {
    |pipes| > 0 && !Last(pipes).passed && Last(pipes).x >= BIRD_X - Pipes.PIPE_VEL
  }

  /** The first loop keeps every bird in its column with a reachable tilt. */
  lemma FlyPhaseKeeps<N>(w: World<N>, sp: Sprites, target: Pipes.Pipe, decide: (N, Observation) -> bool)
    requires WorldInv(w, sp)
    ensures WorldInv(FlyPhase(w, target, decide), sp)
  {
    var r := FlyPhase(w, target, decide);
    forall b | b in r.crowd.birds
      ensures TiltOk(b.tilt)
    {
      var k :| 0 <= k < |r.crowd.birds| && r.crowd.birds[k] == b;
      assert w.crowd.birds[k] in w.crowd.birds;
    }
  }

  /** Pipes the collision loop leaves, scrolled, keep their gap. */
  lemma AdvanceKeepsGap(before: seq<Pipes.Pipe>, after: seq<Pipes.Pipe>, width: int, th: int)
    requires |after| == |before|
    requires forall j :: 0 <= j < |before| ==> after[j] == before[j].(passed := after[j].passed)
    requires forall p :: p in before ==> Pipes.WellFormed(p, th)
    ensures forall p :: p in Advance(after, width) ==> Pipes.WellFormed(p, th)
  {
    AdvanceMembers(after, width);
    forall p | p in Advance(after, width)
      ensures Pipes.WellFormed(p, th)
    {
      var q :| q in after && !Pipes.OffScreen(q, width) && p == Pipes.Move(q);
      var j :| 0 <= j < |after| && after[j] == q;
      assert before[j] in before;
    }
  }

  /** The pipe part of a tick keeps the invariant's share about birds and
      pipes: if some bird survives the collision loop, either a pipe was
      passed and the new pipe leads, or the old leading pipe was still right
      of the birds and leads one step further left. */
  lemma PipePhaseKeeps<N>(w: World<N>, collides: (Pipes.Pipe, Bird) -> bool, sp: Sprites, spawnHeight: int)
    requires WorldInv(w, sp) && ValidSprites(sp) && Pipes.ValidHeight(spawnHeight)
    ensures WorldInv(PipePhase(w, collides, sp, spawnHeight), sp)
    ensures var r := PipePhase(w, collides, sp, spawnHeight);
            |r.crowd.birds| > 0 ==>
              || (r.score == w.score + 1 && Last(r.pipes) == Pipes.NewPipe(PIPE_SPAWN_X, spawnHeight, sp.pipeHeight))
              || (r.score == w.score && Last(r.pipes) == Pipes.Move(Last(w.pipes)))
  {
    var scan := ScanPipes(w.pipes, w.crowd, collides);
    ScanPipesKeepsPairing(w.pipes, w.crowd, collides, w.crowd.nets);
    ScanPipesAtColumn(w.pipes, w.crowd, collides, BIRD_X);
    var kept := Advance(scan.pipes, sp.pipeWidth);
    AdvanceKeepsGap(w.pipes, scan.pipes, sp.pipeWidth, sp.pipeHeight);
    var r := PipePhase(w, collides, sp, spawnHeight);
    assert r.crowd == scan.crowd;
    forall b | b in r.crowd.birds
      ensures TiltOk(b.tilt)
    {
      assert b in w.crowd.birds;
    }
    if |r.crowd.birds| > 0 && !Flipped(w.pipes, scan.pipes) {
      var n := |w.pipes| - 1;
      assert scan.pipes[n].passed == (w.pipes[n].passed || w.pipes[n].x < BIRD_X);
      assert scan.pipes[n] == w.pipes[n];
      assert r.pipes == kept;
    }
  }

  /** The last loop of a tick only drops birds. */
  lemma GroundPhaseKeeps<N>(w: World<N>, sp: Sprites)
    requires WorldInv(w, sp)
    ensures WorldInv(GroundPhase(w, sp.birdHeight), sp)
  {
    var doomed := b => OutOfBounds(b, sp.birdHeight);
    ScanKeepsPairing(w.crowd, 0, doomed, w.crowd.nets);
    var r := GroundPhase(w, sp.birdHeight);
    forall k | 0 <= k < |r.crowd.birds|
      ensures r.crowd.birds[k].x == BIRD_X && TiltOk(r.crowd.birds[k].tilt)
    {
      assert r.crowd.birds[k] in w.crowd.birds;
    }
  }

  /** Every tick keeps the invariant, so `Tick`'s precondition holds on every
      tick of a generation. */
  lemma TickKeepsInvariant<N>(w: World<N>, sp: Sprites, decide: (N, Observation) -> bool,
                              collides: (Pipes.Pipe, Bird) -> bool, spawnHeight: int)
    requires WorldInv(w, sp) && ValidSprites(sp) && Pipes.ValidHeight(spawnHeight)
    ensures WorldInv(Tick(w, sp, decide, collides, spawnHeight).world, sp)
  {
    if |w.crowd.birds| > 0 {
      var target := w.pipes[PipeIndex(w.crowd.birds, w.pipes, sp.pipeWidth)];
      var flown := FlyPhase(w, target, decide);
      FlyPhaseKeeps(w, sp, target, decide);
      var piped := PipePhase(flown, collides, sp, spawnHeight);
      PipePhaseKeeps(flown, collides, sp, spawnHeight);
      GroundPhaseKeeps(piped, sp);
    }
  }

  /** The generation's start: one bird at (230, 350) per network, genome `k`
      for player `k` with fitness 0, one pipe at 600 and fresh ground. */
  function Init<N>(nets: seq<N>, sp: Sprites, spawnHeight: int): (w: World<N>)
    requires ValidSprites(sp) && Pipes.ValidHeight(spawnHeight)
    ensures WorldInv(w, sp)
    ensures Paired(w.crowd, nets) && |w.crowd.birds| == |nets|
    ensures forall k :: 0 <= k < |w.crowd.birds| ==> w.crowd.birds[k] == NewBird(BIRD_X, BIRD_Y)
    ensures |w.fitness| == |nets| && forall g :: 0 <= g < |w.fitness| ==> w.fitness[g] == 0.0
    ensures w.pipes == [Pipes.NewPipe(PIPE_SPAWN_X, spawnHeight, sp.pipeHeight)] && w.score == 0
    ensures w.base == Ground.NewBase(FLOOR, sp.baseWidth)
    ensures w.base.y == FLOOR && w.base.x1 == 0 && w.base.x2 == sp.baseWidth
  {
    var n := |nets|;
    var ge: seq<nat> := seq(n, k requires 0 <= k => k as nat);
    World(Crowd(seq(n, _ => NewBird(BIRD_X, BIRD_Y)), nets, ge), seq(n, _ => 0.0),
          [Pipes.NewPipe(PIPE_SPAWN_X, spawnHeight, sp.pipeHeight)], Ground.NewBase(FLOOR, sp.baseWidth), 0)
  }

  /** A generation played for at most `|heights|` ticks, tick `k` drawing
      `heights[k]` if it spawns a pipe; it stops at the first tick that finds
      no bird alive. */
  function Run<N>(w: World<N>, sp: Sprites, decide: (N, Observation) -> bool,
                  collides: (Pipes.Pipe, Bird) -> bool, heights: seq<int>): (r: World<N>)
    requires WorldInv(w, sp) && ValidSprites(sp)
    requires forall k :: 0 <= k < |heights| ==> Pipes.ValidHeight(heights[k])
    ensures WorldInv(r, sp)
    ensures |r.crowd.birds| <= |w.crowd.birds| && |r.fitness| == |w.fitness|
    ensures w.score <= r.score <= w.score + |heights|
    ensures |w.crowd.birds| == 0 ==> r == w
    decreases |heights|
  {
    if |heights| == 0 then w
    else
      TickKeepsInvariant(w, sp, decide, collides, heights[0]);
      match Tick(w, sp, decide, collides, heights[0])
      case Over(v) => v
      case Running(v) => Run(v, sp, decide, collides, heights[1..])
  }

  /** A tick keeps every network next to its genome. */
  lemma TickKeepsPairing<N>(w: World<N>, sp: Sprites, decide: (N, Observation) -> bool,
                            collides: (Pipes.Pipe, Bird) -> bool, spawnHeight: int, netOf: seq<N>)
    requires WorldInv(w, sp) && Pipes.ValidHeight(spawnHeight)
    requires Paired(w.crowd, netOf)
    ensures Paired(Tick(w, sp, decide, collides, spawnHeight).world.crowd, netOf)
  {
    if |w.crowd.birds| > 0 {
      var target := w.pipes[PipeIndex(w.crowd.birds, w.pipes, sp.pipeWidth)];
      var flown := FlyPhase(w, target, decide);
      assert flown.crowd.nets == w.crowd.nets && flown.crowd.ge == w.crowd.ge;
      PhasesKeepPairing(flown, collides, sp, spawnHeight, netOf);
    }
  }

  /** The two popping loops keep every network next to its genome. */
  lemma PhasesKeepPairing<N>(w: World<N>, collides: (Pipes.Pipe, Bird) -> bool, sp: Sprites, spawnHeight: int, netOf: seq<N>)
    requires Consistent(w) && Pipes.ValidHeight(spawnHeight) && Paired(w.crowd, netOf)
    ensures Paired(GroundPhase(PipePhase(w, collides, sp, spawnHeight), sp.birdHeight).crowd, netOf)
  {
    ScanPipesKeepsPairing(w.pipes, w.crowd, collides, netOf);
    var piped := PipePhase(w, collides, sp, spawnHeight);
    assert piped.crowd == ScanPipes(w.pipes, w.crowd, collides).crowd;
    ScanKeepsPairing(piped.crowd, 0, b => OutOfBounds(b, sp.birdHeight), netOf);
  }

  /** A score point is scored on a tick only for a pipe that was not passed
      and is left of the birds' column; and as long as some bird lives
      through the tick, any such pipe scores one. */
  lemma TickScore<N>(w: World<N>, sp: Sprites, decide: (N, Observation) -> bool,
                     collides: (Pipes.Pipe, Bird) -> bool, spawnHeight: int)
    requires WorldInv(w, sp) && Pipes.ValidHeight(spawnHeight)
    ensures var r := Tick(w, sp, decide, collides, spawnHeight).world;
            r.score == w.score + 1 ==>
              exists j :: 0 <= j < |w.pipes| && !w.pipes[j].passed && w.pipes[j].x < BIRD_X
    ensures var r := Tick(w, sp, decide, collides, spawnHeight).world;
            |r.crowd.birds| > 0 && (exists j :: 0 <= j < |w.pipes| && !w.pipes[j].passed && w.pipes[j].x < BIRD_X) ==>
              r.score == w.score + 1
  {
    if |w.crowd.birds| > 0 {
      var target := w.pipes[PipeIndex(w.crowd.birds, w.pipes, sp.pipeWidth)];
      var flown := FlyPhase(w, target, decide);
      FlyPhaseKeeps(w, sp, target, decide);
      var scan := ScanPipes(flown.pipes, flown.crowd, collides);
      ScanPipesAtColumn(flown.pipes, flown.crowd, collides, BIRD_X);
      var r := Tick(w, sp, decide, collides, spawnHeight).world;
      assert r.score == w.score + 1 <==> Flipped(w.pipes, scan.pipes);
      if Flipped(w.pipes, scan.pipes) {
        var j :| 0 <= j < |w.pipes| && j < |scan.pipes| && !w.pipes[j].passed && scan.pipes[j].passed;
        assert w.pipes[j].x < BIRD_X;
      }
      if |r.crowd.birds| > 0 {
        assert |scan.crowd.birds| > 0;
        if j :| 0 <= j < |w.pipes| && !w.pipes[j].passed && w.pipes[j].x < BIRD_X {
          assert scan.pipes[j].passed;
          assert Flipped(w.pipes, scan.pipes);
        }
      }
    }
  }

  /** The fitness change the pipe part of a tick makes to one genome: none
      for a genome not playing, the crash penalty for a genome it pops, the
      pass bonus (if a point was scored) for a genome still playing. */
  lemma PipePhaseFitness<N>(w: World<N>, collides: (Pipes.Pipe, Bird) -> bool, sp: Sprites, spawnHeight: int, g: nat)
    requires Consistent(w) && Increasing(w.crowd.ge) && Pipes.ValidHeight(spawnHeight) && g < |w.fitness|
    ensures var r := PipePhase(w, collides, sp, spawnHeight);
            g !in w.crowd.ge ==> r.fitness[g] == w.fitness[g]
    ensures var r := PipePhase(w, collides, sp, spawnHeight);
            g in r.crowd.ge ==> r.fitness[g] == w.fitness[g] + (if r.score == w.score + 1 then PASS_BONUS else 0.0)
    ensures var r := PipePhase(w, collides, sp, spawnHeight);
            g in w.crowd.ge && g !in r.crowd.ge ==> r.fitness[g] == w.fitness[g] - CRASH_PENALTY
  {
    var scan := ScanPipes(w.pipes, w.crowd, collides);
    ScanPipesAccounts(w.pipes, w.crowd, collides);
    SplitHandles(scan.crowd.ge, scan.culled, w.crowd.ge, w.fitness);
    IncreasingOnce(w.crowd.ge, g);
    var inScan := multiset(scan.crowd.ge)[g];
    var inCulled := multiset(scan.culled)[g];
    assert inScan + inCulled == multiset(w.crowd.ge)[g];
    var f := Credit(w.fitness, scan.culled, -CRASH_PENALTY);
    assert f[g] == w.fitness[g] + Times(-CRASH_PENALTY, inCulled);
    var r := PipePhase(w, collides, sp, spawnHeight);
    assert r.crowd == scan.crowd;
    if Flipped(w.pipes, scan.pipes) {
      assert r.fitness[g] == f[g] + Times(PASS_BONUS, inScan);
    } else {
      assert r.fitness[g] == f[g];
    }
  }

  /** Which fitness change a tick can make to one genome. A genome no longer
      playing keeps its fitness; a genome still playing after the tick gains
      the survival reward, plus the pass bonus if a point was scored; a
      genome that dropped out during the tick either hit a pipe, losing the
      crash penalty from the reward, or left the field, keeping the reward
      and, on a scoring tick, the bonus it got before leaving. */
  lemma TickFitness<N>(w: World<N>, sp: Sprites, decide: (N, Observation) -> bool,
                       collides: (Pipes.Pipe, Bird) -> bool, spawnHeight: int, g: nat)
    requires WorldInv(w, sp) && Pipes.ValidHeight(spawnHeight) && g < |w.fitness|
    ensures var r := Tick(w, sp, decide, collides, spawnHeight).world;
            g !in w.crowd.ge ==> r.fitness[g] == w.fitness[g]
    ensures var r := Tick(w, sp, decide, collides, spawnHeight).world;
            g in r.crowd.ge ==>
              r.fitness[g] == w.fitness[g] + SURVIVAL_REWARD + (if r.score == w.score + 1 then PASS_BONUS else 0.0)
    ensures var r := Tick(w, sp, decide, collides, spawnHeight).world;
            g in w.crowd.ge && g !in r.crowd.ge && r.score == w.score + 1 ==>
              || r.fitness[g] == w.fitness[g] + SURVIVAL_REWARD - CRASH_PENALTY
              || r.fitness[g] == w.fitness[g] + SURVIVAL_REWARD + PASS_BONUS
    ensures var r := Tick(w, sp, decide, collides, spawnHeight).world;
            g in w.crowd.ge && g !in r.crowd.ge && r.score != w.score + 1 ==>
              || r.fitness[g] == w.fitness[g] + SURVIVAL_REWARD - CRASH_PENALTY
              || r.fitness[g] == w.fitness[g] + SURVIVAL_REWARD
  {
    if |w.crowd.birds| > 0 {
      var target := w.pipes[PipeIndex(w.crowd.birds, w.pipes, sp.pipeWidth)];
      var flown := FlyPhase(w, target, decide);
      IncreasingOnce(w.crowd.ge, g);
      assert flown.fitness[g] == w.fitness[g] + Times(SURVIVAL_REWARD, multiset(w.crowd.ge)[g]);
      PipePhaseFitness(flown, collides, sp, spawnHeight, g);
      var piped := PipePhase(flown, collides, sp, spawnHeight);
      var r := Tick(w, sp, decide, collides, spawnHeight).world;
      assert r.fitness == piped.fitness && r.score == piped.score;
      assert g in r.crowd.ge ==> g in piped.crowd.ge;
    }
  }

  /** The pipes after the pipe part of a tick: the scanned pipes scrolled
      and thinned out, plus the new one on a scoring tick. */
  lemma PipePhaseShape<N>(w: World<N>, collides: (Pipes.Pipe, Bird) -> bool, sp: Sprites, spawnHeight: int)
    requires Consistent(w) && Pipes.ValidHeight(spawnHeight)
    ensures var kept := Advance(ScanPipes(w.pipes, w.crowd, collides).pipes, sp.pipeWidth);
            var r := PipePhase(w, collides, sp, spawnHeight);
            r.pipes == kept
            || (r.score == w.score + 1 && r.pipes == kept + [Pipes.NewPipe(PIPE_SPAWN_X, spawnHeight, sp.pipeHeight)])
  {
  }

  /** Where the pipes after the pipe part of a tick come from: each is
      either the one spawned on a scoring tick or an on-screen pipe scrolled
      one step, with its gap and, once set, its `passed` flag. */
  lemma PipePhaseOrigins<N>(w: World<N>, collides: (Pipes.Pipe, Bird) -> bool, sp: Sprites, spawnHeight: int)
    requires Consistent(w) && Pipes.ValidHeight(spawnHeight)
    ensures var r := PipePhase(w, collides, sp, spawnHeight);
            forall p :: p in r.pipes ==>
              || (r.score == w.score + 1 && p == Pipes.NewPipe(PIPE_SPAWN_X, spawnHeight, sp.pipeHeight))
              || exists q :: q in w.pipes && !Pipes.OffScreen(q, sp.pipeWidth)
                             && p.x == q.x - Pipes.PIPE_VEL && p.height == q.height && p.bottom == q.bottom
                             && (q.passed ==> p.passed)
  {
    var scan := ScanPipes(w.pipes, w.crowd, collides);
    var kept := Advance(scan.pipes, sp.pipeWidth);
    PipePhaseShape(w, collides, sp, spawnHeight);
    var r := PipePhase(w, collides, sp, spawnHeight);
    var spawned := Pipes.NewPipe(PIPE_SPAWN_X, spawnHeight, sp.pipeHeight);
    forall p | p in r.pipes && !(r.score == w.score + 1 && p == spawned)
      ensures exists q :: q in w.pipes && !Pipes.OffScreen(q, sp.pipeWidth)
                          && p.x == q.x - Pipes.PIPE_VEL && p.height == q.height && p.bottom == q.bottom
                          && (q.passed ==> p.passed)
    {
      assert p in kept;
      KeptOrigin(w.pipes, scan.pipes, sp.pipeWidth, p);
    }
  }

  /** A pipe kept after the collision loop is an on-screen pipe from before
      the loop, scrolled, with its gap and any `passed` flag it had. */
  lemma KeptOrigin(before: seq<Pipes.Pipe>, after: seq<Pipes.Pipe>, width: int, p: Pipes.Pipe)
    requires |after| == |before|
    requires forall j :: 0 <= j < |before| ==> after[j] == before[j].(passed := after[j].passed)
    requires forall j :: 0 <= j < |before| ==> before[j].passed ==> after[j].passed
    requires p in Advance(after, width)
    ensures exists q :: q in before && !Pipes.OffScreen(q, width)
                        && p.x == q.x - Pipes.PIPE_VEL && p.height == q.height && p.bottom == q.bottom
                        && (q.passed ==> p.passed)
  {
    AdvanceMembers(after, width);
    var s :| s in after && !Pipes.OffScreen(s, width) && p == Pipes.Move(s);
    var j :| 0 <= j < |after| && after[j] == s;
    assert before[j] in before;
  }


  /** A passed pipe survives the pipe part of a tick, scrolled, until it
      leaves the screen. */
  lemma PipePhaseKeepsPassed<N>(w: World<N>, collides: (Pipes.Pipe, Bird) -> bool, sp: Sprites, spawnHeight: int)
    requires Consistent(w) && Pipes.ValidHeight(spawnHeight)
    ensures var r := PipePhase(w, collides, sp, spawnHeight);
            forall q :: q in w.pipes && q.passed && !Pipes.OffScreen(q, sp.pipeWidth) ==> Pipes.Move(q) in r.pipes
  {
    var scan := ScanPipes(w.pipes, w.crowd, collides);
    var kept := Advance(scan.pipes, sp.pipeWidth);
    AdvanceMembers(scan.pipes, sp.pipeWidth);
    PipePhaseShape(w, collides, sp, spawnHeight);
    var r := PipePhase(w, collides, sp, spawnHeight);
    forall q | q in w.pipes && q.passed && !Pipes.OffScreen(q, sp.pipeWidth)
      ensures Pipes.Move(q) in r.pipes
    {
      var j :| 0 <= j < |w.pipes| && w.pipes[j] == q;
      assert scan.pipes[j] == q;
      assert Pipes.Move(q) in kept;
    }
  }

  /** Where the pipes of a tick come from: each is either the one spawned on
      a scoring tick or an on-screen pipe of the previous tick scrolled one
      step, with its gap and, once set, its `passed` flag. So a pipe is
      passed at most once; and a passed pipe stays until it leaves the
      screen. */
  lemma TickPipes<N>(w: World<N>, sp: Sprites, decide: (N, Observation) -> bool,
                     collides: (Pipes.Pipe, Bird) -> bool, spawnHeight: int)
    requires Consistent(w) && (|w.crowd.birds| > 0 ==> |w.pipes| > 0) && Pipes.ValidHeight(spawnHeight)
    ensures var o := Tick(w, sp, decide, collides, spawnHeight);
            o.Running? ==>
              forall p :: p in o.world.pipes ==>
                || (o.world.score == w.score + 1 && p == Pipes.NewPipe(PIPE_SPAWN_X, spawnHeight, sp.pipeHeight))
                || exists q :: q in w.pipes && !Pipes.OffScreen(q, sp.pipeWidth)
                               && p.x == q.x - Pipes.PIPE_VEL && p.height == q.height && p.bottom == q.bottom
                               && (q.passed ==> p.passed)
    ensures var o := Tick(w, sp, decide, collides, spawnHeight);
            o.Running? ==>
              forall q :: q in w.pipes && q.passed && !Pipes.OffScreen(q, sp.pipeWidth) ==> Pipes.Move(q) in o.world.pipes
  {
    if |w.crowd.birds| > 0 {
      var target := w.pipes[PipeIndex(w.crowd.birds, w.pipes, sp.pipeWidth)];
      var flown := FlyPhase(w, target, decide);
      PipePhaseOrigins(flown, collides, sp, spawnHeight);
      PipePhaseKeepsPassed(flown, collides, sp, spawnHeight);
      var piped := PipePhase(flown, collides, sp, spawnHeight);
      var r := Tick(w, sp, decide, collides, spawnHeight).world;
      assert r.pipes == piped.pipes && r.score == piped.score;
    }
  }

  /** The collision loop removes only players whose bird collides with some
      pipe, and keeps the others with their own genomes. */
  lemma {:induction false} ScanPipesCulprits<N>(pipes: seq<Pipes.Pipe>, c: Crowd<N>, collides: (Pipes.Pipe, Bird) -> bool)
    requires Lockstep(c)
    ensures Within(ScanPipes(pipes, c, collides).crowd, c)
    ensures forall g :: g in ScanPipes(pipes, c, collides).culled ==>
              exists j, b :: 0 <= j < |pipes| && Plays(c, b, g) && collides(pipes[j], b)
    decreases |pipes|
  {
    var r := ScanPipes(pipes, c, collides);
    if |pipes| == 0 {
      forall k | 0 <= k < |c.birds| && k < |c.ge|
        ensures Plays(c, c.birds[k], c.ge[k])
      {
      }
    } else {
      var p := pipes[0];
      var doomed := b => collides(p, b);
      var s := Scan(c, 0, doomed);
      ScanCulprits(c, 0, doomed);
      ScanPipesCulprits(pipes[1..], s.crowd, collides);
      var rest := ScanPipes(pipes[1..], s.crowd, collides);
      WithinTrans(r.crowd, s.crowd, c);
      forall g | g in r.culled
        ensures exists j, b :: 0 <= j < |pipes| && Plays(c, b, g) && collides(pipes[j], b)
      {
        if g in s.culled {
          var b :| Plays(c, b, g) && doomed(b);
          assert collides(pipes[0], b);
        } else {
          assert g in rest.culled;
          var j, b :| 0 <= j < |pipes[1..]| && Plays(s.crowd, b, g) && collides(pipes[1..][j], b);
          var k :| 0 <= k < |s.crowd.birds| && k < |s.crowd.ge| && s.crowd.birds[k] == b && s.crowd.ge[k] == g;
          assert Plays(c, s.crowd.birds[k], s.crowd.ge[k]);
          assert collides(pipes[j + 1], b);
        }
      }
    }
  }

  /** With no bird colliding with any pipe, the collision loop removes no one. */
  lemma {:induction false} ScanPipesHarmless<N>(pipes: seq<Pipes.Pipe>, c: Crowd<N>, collides: (Pipes.Pipe, Bird) -> bool)
    requires Lockstep(c)
    requires forall j, k :: 0 <= j < |pipes| && 0 <= k < |c.birds| ==> !collides(pipes[j], c.birds[k])
    ensures ScanPipes(pipes, c, collides).crowd == c && ScanPipes(pipes, c, collides).culled == []
    decreases |pipes|
  {
    if |pipes| > 0 {
      var p := pipes[0];
      ScanHarmless(c, 0, b => collides(p, b));
      ScanPipesHarmless(pipes[1..], c, collides);
    }
  }

  /** A genome leaves in the pipe part of a tick only if its bird collides
      with some pipe; if no bird collides, no one leaves. */
  lemma PipePhaseCulprits<N>(w: World<N>, collides: (Pipes.Pipe, Bird) -> bool, sp: Sprites, spawnHeight: int)
    requires Consistent(w) && Pipes.ValidHeight(spawnHeight)
    ensures var r := PipePhase(w, collides, sp, spawnHeight);
            forall g :: g in w.crowd.ge && g !in r.crowd.ge ==>
              exists j, b :: 0 <= j < |w.pipes| && Plays(w.crowd, b, g) && collides(w.pipes[j], b)
    ensures (forall j, k :: 0 <= j < |w.pipes| && 0 <= k < |w.crowd.birds| ==> !collides(w.pipes[j], w.crowd.birds[k])) ==>
              PipePhase(w, collides, sp, spawnHeight).crowd == w.crowd
  {
    var scan := ScanPipes(w.pipes, w.crowd, collides);
    ScanPipesAccounts(w.pipes, w.crowd, collides);
    ScanPipesCulprits(w.pipes, w.crowd, collides);
    var r := PipePhase(w, collides, sp, spawnHeight);
    assert r.crowd == scan.crowd;
    forall g | g in w.crowd.ge && g !in r.crowd.ge
      ensures g in scan.culled
    {
      assert g in multiset(w.crowd.ge);
      assert g !in multiset(scan.crowd.ge);
    }
    if forall j, k :: 0 <= j < |w.pipes| && 0 <= k < |w.crowd.birds| ==> !collides(w.pipes[j], w.crowd.birds[k]) {
      ScanPipesHarmless(w.pipes, w.crowd, collides);
    }
  }

  /** A genome leaves in the boundary loop only if its bird is out of
      bounds; if no bird is, no one leaves. */
  lemma GroundPhaseCulprits<N>(w: World<N>, birdHeight: int)
    requires Consistent(w)
    ensures forall g :: g in w.crowd.ge && g !in GroundPhase(w, birdHeight).crowd.ge ==>
              exists b :: Plays(w.crowd, b, g) && OutOfBounds(b, birdHeight)
    ensures (forall k :: 0 <= k < |w.crowd.birds| ==> !OutOfBounds(w.crowd.birds[k], birdHeight)) ==>
              GroundPhase(w, birdHeight) == w
  {
    var doomed := b => OutOfBounds(b, birdHeight);
    var s := Scan(w.crowd, 0, doomed);
    ScanAccounts(w.crowd, 0, doomed);
    ScanCulprits(w.crowd, 0, doomed);
    assert GroundPhase(w, birdHeight).crowd == s.crowd;
    forall g | g in w.crowd.ge && g !in s.crowd.ge
      ensures exists b :: Plays(w.crowd, b, g) && OutOfBounds(b, birdHeight)
    {
      assert g in multiset(w.crowd.ge);
      assert g !in multiset(s.crowd.ge);
      assert g in s.culled;
      var b :| Plays(w.crowd, b, g) && doomed(b);
    }
    if forall k :: 0 <= k < |w.crowd.birds| ==> !OutOfBounds(w.crowd.birds[k], birdHeight) {
      ScanHarmless(w.crowd, 0, doomed);
    }
  }
  /** The pass for the first pipe always pops the first bird that collides
      with it: that player's genome is the first reported and, with each
      genome listed once, no longer plays after the collision loop. */
  lemma ScanPipesRemovesFirst<N>(pipes: seq<Pipes.Pipe>, c: Crowd<N>, collides: (Pipes.Pipe, Bird) -> bool, k: nat)
    requires Lockstep(c) && |pipes| > 0 && k < |c.birds| && collides(pipes[0], c.birds[k])
    requires forall j :: 0 <= j < k ==> !collides(pipes[0], c.birds[j])
    ensures |ScanPipes(pipes, c, collides).culled| > 0 && ScanPipes(pipes, c, collides).culled[0] == c.ge[k]
    ensures Increasing(c.ge) ==> c.ge[k] !in ScanPipes(pipes, c, collides).crowd.ge
  {
    var p := pipes[0];
    var doomed := b => collides(p, b);
    var s := Scan(c, 0, doomed);
    ScanRemovesFirst(c, k, doomed);
    var rest := ScanPipes(pipes[1..], s.crowd, collides);
    assert ScanPipes(pipes, c, collides).crowd == rest.crowd;
    ScanPipesCulprits(pipes[1..], s.crowd, collides);
    WithinGenomes(rest.crowd, s.crowd);
  }

  /** The boundary loop always removes the first bird that is out of bounds;
      with each genome listed once, its genome no longer plays. */
  lemma GroundPhaseRemovesFirst<N>(w: World<N>, birdHeight: int, k: nat)
    requires Consistent(w) && k < |w.crowd.birds| && OutOfBounds(w.crowd.birds[k], birdHeight)
    requires forall j :: 0 <= j < k ==> !OutOfBounds(w.crowd.birds[j], birdHeight)
    ensures Increasing(w.crowd.ge) ==> w.crowd.ge[k] !in GroundPhase(w, birdHeight).crowd.ge
  {
    var doomed := b => OutOfBounds(b, birdHeight);
    ScanRemovesFirst(w.crowd, k, doomed);
    assert GroundPhase(w, birdHeight).crowd == Scan(w.crowd, 0, doomed).crowd;
  }

  /** Every bird alive after a tick is the turn its own player took in the
      first loop: moved, shown the pipe `PipeIndex` picks, and jumped exactly
      when its network said so. */
  lemma TickBirds<N>(w: World<N>, sp: Sprites, decide: (N, Observation) -> bool,
                     collides: (Pipes.Pipe, Bird) -> bool, spawnHeight: int)
    requires Consistent(w) && |w.crowd.birds| > 0 && |w.pipes| > 0
    requires Pipes.ValidHeight(spawnHeight)
    ensures var r := Tick(w, sp, decide, collides, spawnHeight).world;
            forall k :: 0 <= k < |r.crowd.birds| ==>
              exists j :: 0 <= j < |w.crowd.birds| && w.crowd.ge[j] == r.crowd.ge[k]
                && r.crowd.birds[k] == FlyBird(w.crowd.birds[j], w.crowd.nets[j],
                                               w.pipes[PipeIndex(w.crowd.birds, w.pipes, sp.pipeWidth)], decide)
  {
    var target := w.pipes[PipeIndex(w.crowd.birds, w.pipes, sp.pipeWidth)];
    var flown := FlyPhase(w, target, decide);
    var piped := PipePhase(flown, collides, sp, spawnHeight);
    var grounded := GroundPhase(piped, sp.birdHeight);
    var r := Tick(w, sp, decide, collides, spawnHeight).world;
    assert r.crowd == grounded.crowd;
    ScanPipesCulprits(flown.pipes, flown.crowd, collides);
    assert piped.crowd == ScanPipes(flown.pipes, flown.crowd, collides).crowd;
    ScanCulprits(piped.crowd, 0, b => OutOfBounds(b, sp.birdHeight));
    assert grounded.crowd == Scan(piped.crowd, 0, b => OutOfBounds(b, sp.birdHeight)).crowd;
    WithinTrans(r.crowd, piped.crowd, flown.crowd);
    forall k | 0 <= k < |r.crowd.birds|
      ensures exists j :: 0 <= j < |w.crowd.birds| && w.crowd.ge[j] == r.crowd.ge[k]
                && r.crowd.birds[k] == FlyBird(w.crowd.birds[j], w.crowd.nets[j], target, decide)
    {
      assert Plays(flown.crowd, r.crowd.birds[k], r.crowd.ge[k]);
      var j :| 0 <= j < |flown.crowd.birds| && j < |flown.crowd.ge|
               && flown.crowd.birds[j] == r.crowd.birds[k] && flown.crowd.ge[j] == r.crowd.ge[k];
      assert flown.crowd.birds[j] == FlyBird(w.crowd.birds[j], w.crowd.nets[j], target, decide);
    }
  }
}

=== FILE: ground.dfy ===
/**
 The scrolling ground: two copies of one image side by side, both sliding
 left; a copy that leaves the screen is put back behind the other one.
 */
module Ground {

  /** Horizontal distance the ground travels per tick. */
  const BASE_VEL: int := 5

  /** The ground at height `y`, with its two tiles' left edges. */
  datatype Base = Base(y: int, x1: int, x2: int)

  /** The two tiles sit exactly one tile width apart and neither has left the
      screen entirely. */
  predicate Seamless(b: Base, width: int)
  {
    && (b.x2 - b.x1 == width || b.x1 - b.x2 == width)
    && b.x1 + width >= 0
    && b.x2 + width >= 0
  }

  /** Fresh ground at height `y`: the first tile at 0, the second right after it. */
  function NewBase(y: int, width: int): (b: Base)
    requires width > 0
    ensures Seamless(b, width) && b.y == y
    ensures b.x1 == 0 && b.x2 == width
  {
    Base(y, 0, width)
  }

  /** One tick of scrolling, with wrap-around of a tile that has left. */
  function Move(b: Base, width: int): (r: Base)
    ensures r.y == b.y
    // each tile either slides by one step or is placed behind the other one
    ensures r.x1 == b.x1 - BASE_VEL || r.x1 == b.x2 - BASE_VEL + width
    ensures r.x2 == b.x2 - BASE_VEL || r.x2 == r.x1 + width
    // with tiles wider than one step: still seamless, and at most one tile wraps
    ensures width > BASE_VEL && Seamless(b, width) ==>
              Seamless(r, width) && (r.x1 == b.x1 - BASE_VEL || r.x2 == b.x2 - BASE_VEL)
    // a tile wraps exactly when its right edge has gone past the left border
    ensures width > BASE_VEL && Seamless(b, width) ==>
              && (r.x1 != b.x1 - BASE_VEL <==> b.x1 - BASE_VEL + width < 0)
              && (r.x2 != b.x2 - BASE_VEL <==> b.x2 - BASE_VEL + width < 0)
  {
    var x1 := b.x1 - BASE_VEL;
    var x2 := b.x2 - BASE_VEL;
    var x1' := if x1 + width < 0 then x2 + width else x1;
    var x2' := if x2 + width < 0 then x1' + width else x2;
    Base(b.y, x1', x2')
  }

  /** `n` ticks of scrolling. */
  function Scroll(b: Base, width: int, n: nat): Base
    decreases n
  {
    if n == 0 then b else Move(Scroll(b, width, n - 1), width)
  }

  /** The ground stays seamless forever. */
  lemma {:induction false} ScrollKeepsSeamless(b: Base, width: int, n: nat)
    requires width > BASE_VEL
    requires Seamless(b, width)
    ensures Seamless(Scroll(b, width, n), width)
    decreases n
  {
    if n > 0 {
      ScrollKeepsSeamless(b, width, n - 1);
    }
  }
}

=== FILE: physics.dfy ===
/**
 Vertical motion and tilt of one bird, one tick at a time.

 Every constant the integrator uses is a multiple of one half and the birds
 start at an integer height, so positions and displacements are exact `real`s
 here; no floating-point rounding is involved.
 */
module Physics {

  /** Tilt is raised to this many degrees while the bird climbs. */
  const MAX_ROTATION: int := 25
  /** Degrees the tilt drops per tick while the bird falls. */
  const ROTATION_SPEED: int := 20
  /** The tilt only keeps dropping while it is above this angle. */
  const DIVE_LIMIT: int := -90
  /** Vertical speed set by a jump (negative is upwards). */
  const JUMP_SPEED: real := -10.5
  /** Largest downward displacement applied in one tick. */
  const TERMINAL_DISPLACEMENT: real := 16.0
  /** Extra upward displacement added whenever the bird moves up. */
  const LIFT_BOOST: real := 2.0
  /** Distance below the jump baseline within which the bird keeps its nose up. */
  const NOSE_UP_MARGIN: real := 50.0

  /** A bird: fixed column `x`, height `y`, tilt in degrees, ticks since the
      last jump, the speed set by that jump, and the height it jumped from. */
  datatype Bird = Bird(x: int, y: real, tilt: int, tickCount: int, speed: real, height: real)

  /** A bird at rest at (x, y): level, no jump yet. */
  function NewBird(x: int, y: real): (b: Bird)
    ensures b.x == x && b.y == y && b.height == y
    ensures b.tickCount == 0 && b.speed == 0.0
    ensures b.tilt == 0 && TiltOk(b.tilt)
  {
    Bird(x, y, 0, 0, 0.0, y)
  }

  /** The uncapped displacement after `t` ticks: speed * t + 1.5 * t^2. */
  function Formula(speed: real, t: int): real
  {
    speed * (t as real) + 1.5 * ((t * t) as real)
  }

  /** The displacement actually applied: capped at the terminal value, and
      boosted upwards by a further 2 whenever it is negative. */
  function Displacement(speed: real, t: int): (d: real)
    ensures d <= TERMINAL_DISPLACEMENT
    ensures d < 0.0 <==> Formula(speed, t) < 0.0
    ensures d < 0.0 ==> d == Formula(speed, t) - LIFT_BOOST && d < -LIFT_BOOST
    ensures d >= 0.0 ==> d <= Formula(speed, t)
    ensures 0.0 <= Formula(speed, t) < TERMINAL_DISPLACEMENT ==> d == Formula(speed, t)
    ensures Formula(speed, t) >= TERMINAL_DISPLACEMENT ==> d == TERMINAL_DISPLACEMENT
  {
    var raw := Formula(speed, t);
    var capped := if raw >= TERMINAL_DISPLACEMENT then TERMINAL_DISPLACEMENT else raw;
    if capped < 0.0 then capped - LIFT_BOOST else capped
  }

  /** The tilt range a bird starting level can ever reach. */
  predicate TiltOk(tilt: int)
  {
    DIVE_LIMIT - ROTATION_SPEED < tilt <= MAX_ROTATION
  }

  /** A jump: restart the parabola from the current height. */
  function Jump(b: Bird): (r: Bird)
    ensures r.speed == JUMP_SPEED && r.tickCount == 0 && r.height == b.y
    ensures r.x == b.x && r.y == b.y && r.tilt == b.tilt
  {
    b.(speed := JUMP_SPEED, tickCount := 0, height := b.y)
  }

  /** One tick of motion: advance the tick counter, displace, re-tilt. */
  function Move(b: Bird): (r: Bird)
    ensures r.tickCount == b.tickCount + 1
    ensures r.x == b.x && r.speed == b.speed && r.height == b.height
    ensures r.y == b.y + Displacement(b.speed, b.tickCount + 1)
    ensures r.y - b.y <= TERMINAL_DISPLACEMENT
    ensures r.y < b.y ==> r.y < b.y - LIFT_BOOST
    // climbing, or still close to the jump baseline: nose up
    ensures (r.y < b.y || r.y < b.height + NOSE_UP_MARGIN) ==>
              r.tilt == (if b.tilt < MAX_ROTATION then MAX_ROTATION else b.tilt)
    // falling away from the baseline: dive by a fixed step until past the limit
    ensures !(r.y < b.y || r.y < b.height + NOSE_UP_MARGIN) ==>
              r.tilt == (if b.tilt > DIVE_LIMIT then b.tilt - ROTATION_SPEED else b.tilt)
    ensures TiltOk(b.tilt) ==> TiltOk(r.tilt)
  {
    var t := b.tickCount + 1;
    var d := Displacement(b.speed, t);
    var y := b.y + d;
    var tilt :=
      if d < 0.0 || y < b.height + NOSE_UP_MARGIN then
        (if b.tilt < MAX_ROTATION then MAX_ROTATION else b.tilt)
      else
        (if b.tilt > DIVE_LIMIT then b.tilt - ROTATION_SPEED else b.tilt);
    b.(tickCount := t, y := y, tilt := tilt)
  }

  /** `n` ticks of motion with no jump. */
  function Coast(b: Bird, n: nat): Bird
    decreases n
  {
    if n == 0 then b else Move(Coast(b, n - 1))
  }

  /** The per-tick order the game uses: move first, then jump if asked to. */
  function Step(b: Bird, flap: bool): (r: Bird)
    ensures r.x == b.x
    ensures r.y == Move(b).y && r.tilt == Move(b).tilt
    ensures !flap ==> r == Move(b)
    ensures flap ==> r.speed == JUMP_SPEED && r.tickCount == 0 && r.height == r.y
    ensures !flap ==> r.speed == b.speed && r.tickCount == b.tickCount + 1
    ensures r.y - b.y <= TERMINAL_DISPLACEMENT
    ensures TiltOk(b.tilt) ==> TiltOk(r.tilt)
  {
    var m := Move(b);
    if flap then Jump(m) else m
  }

  /** A whole flight: one `Step` per entry of `flaps`. */
  function Flight(b: Bird, flaps: seq<bool>): Bird
    decreases |flaps|
  {
    if |flaps| == 0 then b else Flight(Step(b, flaps[0]), flaps[1..])
  }

  /** The first tick after a jump lifts the bird by exactly 11 (-10.5 + 1.5,
      then the boost of 2) and puts its nose fully up. */
  lemma JumpThenMove(b: Bird)
    ensures Move(Jump(b)).y == b.y - 11.0
    ensures Move(Jump(b)).tickCount == 1
    ensures Move(Jump(b)).tilt == (if b.tilt < MAX_ROTATION then MAX_ROTATION else b.tilt)
  {
    assert Formula(JUMP_SPEED, 1) == -9.0;
  }

  /** After a jump the bird climbs on ticks 1 to 6 and never again until the
      next jump: the uncapped formula is 1.5 * t * (t - 7). */
  lemma AscentAfterJump(t: int)
    requires t >= 1
    ensures Displacement(JUMP_SPEED, t) < 0.0 <==> t <= 6
  {
    var p := t * t - 7 * t;
    assert Formula(JUMP_SPEED, t) == 1.5 * (p as real);
    if t <= 6 {
      assert p == t * (t - 7) && t - 7 < 0;
      assert t * (t - 7) < 0;
    } else {
      assert p == t * (t - 7) && t - 7 >= 0;
      assert t * (t - 7) >= 0;
    }
  }

  /** Squares are monotone on the naturals. */
  lemma SquareMonotone(a: int, b: int)
    requires 0 <= a <= b
    ensures a * a <= b * b
  {
    assert a * a <= a * b;
    assert a * b <= b * b;
  }

  /** From rest (speed 0) the displacement grows with the tick count. */
  lemma RestDisplacementMonotone(t1: int, t2: int)
    requires 0 <= t1 <= t2
    ensures Displacement(0.0, t1) <= Displacement(0.0, t2)
  {
    SquareMonotone(t1, t2);
  }

  /** From rest the bird reaches terminal displacement on its fourth tick. */
  lemma RestDisplacementSaturates(t: int)
    requires t >= 4
    ensures Displacement(0.0, t) == TERMINAL_DISPLACEMENT
  {
    SquareMonotone(4, t);
  }

  /** Coasting from rest: the counter counts the ticks, the speed stays 0 and
      tick `k + 1` displaces the bird by the rest formula at `k + 1`. */
  lemma {:induction false} CoastFromRest(b: Bird, k: nat)
    requires b.speed == 0.0 && b.tickCount == 0
    ensures Coast(b, k).tickCount == k && Coast(b, k).speed == 0.0
    ensures Coast(b, k + 1).y - Coast(b, k).y == Displacement(0.0, k + 1)
  {
    if k > 0 {
      CoastFromRest(b, k - 1);
    }
  }

  /** A bird that never jumps falls faster every tick until it reaches the
      terminal displacement of 16 on its fourth tick, and keeps that speed. */
  lemma FallAccelerates(b: Bird, k: nat)
    requires b.speed == 0.0 && b.tickCount == 0
    ensures Coast(b, k + 1).y - Coast(b, k).y <= Coast(b, k + 2).y - Coast(b, k + 1).y
    ensures k >= 3 ==> Coast(b, k + 1).y - Coast(b, k).y == TERMINAL_DISPLACEMENT
  {
    CoastFromRest(b, k);
    CoastFromRest(b, k + 1);
    RestDisplacementMonotone(k + 1, k + 2);
    if k >= 3 {
      RestDisplacementSaturates(k + 1);
    }
  }

  /** Starting from any tilt in (-110, 25], and in particular from level,
      no flight ever leaves that range. */
  lemma {:induction false} FlightKeepsTilt(b: Bird, flaps: seq<bool>)
    requires TiltOk(b.tilt)
    ensures TiltOk(Flight(b, flaps).tilt)
    decreases |flaps|
  {
    if |flaps| > 0 {
      FlightKeepsTilt(Step(b, flaps[0]), flaps[1..]);
    }
  }
}

=== FILE: pipes.dfy ===
/**
 The pipes: a pair of barriers with a fixed-size gap, scrolling left.
 */
module Pipes {

  /** Vertical size of the opening between the two barriers. */
  const GAP: int := 200
  /** Horizontal distance a pipe travels per tick. */
  const PIPE_VEL: int := 5
  /** The gap top is drawn from [MIN_HEIGHT, MAX_HEIGHT). */
  const MIN_HEIGHT: int := 50
  const MAX_HEIGHT: int := 450

  /** A pipe: left edge `x`, gap top `height`, the upper barrier's image top
      `top`, the lower barrier's top `bottom` (the gap bottom), and whether a
      bird has got past it. */
  datatype Pipe = Pipe(x: int, height: int, top: int, bottom: int, passed: bool)

  /** A gap top the random draw can produce. */
  predicate ValidHeight(h: int)
  {
    MIN_HEIGHT <= h < MAX_HEIGHT
  }

  /** A pipe whose geometry is what a height draw produces, for an upper
      barrier image `topImageHeight` tall. */
  predicate WellFormed(p: Pipe, topImageHeight: int)
  {
    && ValidHeight(p.height)
    && p.bottom == p.height + GAP
    && p.top == p.height - topImageHeight
  }

  /** Place the gap with its top at the drawn height `h`. */
  function SetHeight(p: Pipe, h: int, topImageHeight: int): (r: Pipe)
    requires ValidHeight(h)
    ensures WellFormed(r, topImageHeight)
    ensures MIN_HEIGHT <= r.height < MAX_HEIGHT && r.bottom - r.height == GAP
    ensures r.height == h
    ensures r.x == p.x && r.passed == p.passed
  {
    p.(height := h, top := h - topImageHeight, bottom := h + GAP)
  }

  /** A fresh, not yet passed pipe at `x` whose gap top is `h`. */
  function NewPipe(x: int, h: int, topImageHeight: int): (r: Pipe)
    requires ValidHeight(h)
    ensures WellFormed(r, topImageHeight) && r.height == h
    ensures r.x == x && !r.passed
  {
    SetHeight(Pipe(x, 0, 0, 0, false), h, topImageHeight)
  }

  /** One tick of scrolling. */
  function Move(p: Pipe): (r: Pipe)
    ensures r.x == p.x - PIPE_VEL
    ensures r.height == p.height && r.top == p.top && r.bottom == p.bottom
    ensures r.passed == p.passed
    ensures forall th :: WellFormed(p, th) ==> WellFormed(r, th)
  {
    p.(x := p.x - PIPE_VEL)
  }

  /** Whether the pipe's right edge has left the screen on the left. */
  predicate OffScreen(p: Pipe, width: int)
  {
    p.x + width < 0
  }

  /** `n` ticks of scrolling. */
  function Scroll(p: Pipe, n: nat): Pipe
    decreases n
  {
    if n == 0 then p else Move(Scroll(p, n - 1))
  }

  /** Scrolling never changes a pipe's gap: after any number of ticks the
      pipe is still well formed, `5 * n` further left, with the same gap. */
  lemma {:induction false} ScrollKeepsGap(p: Pipe, n: nat, topImageHeight: int)
    requires WellFormed(p, topImageHeight)
    ensures WellFormed(Scroll(p, n), topImageHeight)
    ensures Scroll(p, n).x == p.x - PIPE_VEL * n
    ensures Scroll(p, n).height == p.height && Scroll(p, n).passed == p.passed
    decreases n
  {
    if n > 0 {
      ScrollKeepsGap(p, n - 1, topImageHeight);
    }
  }
}

=== FILE: population.dfy ===
/**
 The live population as the game loop keeps it: three parallel lists (birds,
 their networks, their genome handles) that must be popped in lockstep, and
 the fitness of every genome of the generation, which outlives the lists.
 */
module Population {
  import opened Physics

  /** Fitness lost on a collision with a pipe. */
  const CRASH_PENALTY: real := 1.0

  /** `birds[k]`, `nets[k]` and `ge[k]` belong to the same player; `ge[k]`
      is that player's genome, an index into the generation's fitness list. */
  datatype Crowd<N> = Crowd(birds: seq<Bird>, nets: seq<N>, ge: seq<nat>)

  /** The three lists have one entry per player. */
  predicate Lockstep<N>(c: Crowd<N>)
  {
    |c.birds| == |c.nets| == |c.ge|
  }

  /** Every genome handle in `ge` names an entry of `fitness`. */
  predicate Handles(ge: seq<nat>, fitness: seq<real>)
  {
    forall k :: 0 <= k < |ge| ==> ge[k] < |fitness|
  }

  /** Every network still sits next to the genome it was built from:
      `netOf[g]` is the network of genome `g`. */
  ghost predicate Paired<N>(c: Crowd<N>, netOf: seq<N>)
  {
    && |c.nets| == |c.ge|
    && forall k :: 0 <= k < |c.ge| ==> c.ge[k] < |netOf| && c.nets[k] == netOf[c.ge[k]]
  }

  /** Genome handles in strictly increasing order (so no genome twice). */
  predicate Increasing(ge: seq<nat>)
  {
    forall i, j :: 0 <= i < j < |ge| ==> ge[i] < ge[j]
  }

  /** Every bird is at column `x`. */
  predicate AllAt(birds: seq<Bird>, x: int)
  {
    forall k :: 0 <= k < |birds| ==> birds[k].x == x
  }

  /** Python's `list.pop(i)` on a value. */
  function RemoveAt<T>(s: seq<T>, i: nat): (r: seq<T>)
    requires i < |s|
    ensures |r| == |s| - 1
    ensures forall k :: 0 <= k < i ==> r[k] == s[k]
    ensures forall k :: i <= k < |r| ==> r[k] == s[k + 1]
    ensures multiset(r) + multiset{s[i]} == multiset(s)
    ensures forall x :: x in r ==> x in s
  {
    assert s == s[..i] + [s[i]] + s[i + 1..];
    s[..i] + s[i + 1..]
  }

  /** Pop slot `i` from all three lists at once. */
  function Pop<N>(c: Crowd<N>, i: nat): (r: Crowd<N>)
    requires Lockstep(c) && i < |c.birds|
    ensures Lockstep(r) && |r.birds| == |c.birds| - 1
    ensures multiset(r.ge) + multiset{c.ge[i]} == multiset(c.ge)
  {
    Crowd(RemoveAt(c.birds, i), RemoveAt(c.nets, i), RemoveAt(c.ge, i))
  }

  /** `amount` added `n` times. */
  function Times(amount: real, n: nat): real
    decreases n
  {
    if n == 0 then 0.0 else Times(amount, n - 1) + amount
  }

  /** Add `amount` to the fitness of every genome in `ge`, in order. A genome
      listed twice is rewarded twice; a genome not listed keeps its fitness. */
  function Credit(fitness: seq<real>, ge: seq<nat>, amount: real): (r: seq<real>)
    requires Handles(ge, fitness)
    ensures |r| == |fitness|
    ensures forall g :: 0 <= g < |fitness| ==> r[g] == fitness[g] + Times(amount, multiset(ge)[g])
    decreases |ge|
  {
    if |ge| == 0 then fitness
    else
      assert ge == [ge[0]] + ge[1..];
      Credit(fitness[ge[0] := fitness[ge[0]] + amount], ge[1..], amount)
  }

  /** The outcome of one enumerate-with-pop pass: the players left, the birds
      the pass actually looked at, and the genomes of the players it popped,
      in the order it popped them. */
  datatype Swept<N> = Swept(crowd: Crowd<N>, visited: seq<Bird>, culled: seq<nat>)

  /** Python's `for x, bird in enumerate(birds)` from slot `i` on, popping
      slot `x` from all three lists whenever `doomed(bird)` holds. The index
      advances after a pop too, so the bird that slides into the vacated slot
      is not looked at in this pass. */
  function Scan<N>(c: Crowd<N>, i: nat, doomed: Bird -> bool): (s: Swept<N>)
    requires Lockstep(c)
    ensures Lockstep(s.crowd)
    ensures |s.crowd.birds| == |c.birds| - |s.culled|
    ensures forall b :: b in s.crowd.birds ==> b in c.birds
    ensures forall b :: b in s.visited ==> b in c.birds
    ensures i < |c.birds| ==> |s.visited| > 0 && s.visited[0] == c.birds[i]
    decreases |c.birds| - i
  {
    if i >= |c.birds| then Swept(c, [], [])
    else
      var b := c.birds[i];
      if doomed(b) then
        var rest := Scan(Pop(c, i), i + 1, doomed);
        Swept(rest.crowd, [b] + rest.visited, [c.ge[i]] + rest.culled)
      else
        var rest := Scan(c, i + 1, doomed);
        Swept(rest.crowd, [b] + rest.visited, rest.culled)
  }

  /** How many of `birds` satisfy `doomed`. */
  function DoomedCount(birds: seq<Bird>, doomed: Bird -> bool): nat
    decreases |birds|
  {
    if |birds| == 0 then 0 else (if doomed(birds[0]) then 1 else 0) + DoomedCount(birds[1..], doomed)
  }

  /** One step of `Scan` when the bird it looks at is popped. */
  lemma ScanPops<N>(c: Crowd<N>, i: nat, doomed: Bird -> bool)
    requires Lockstep(c) && i < |c.birds| && doomed(c.birds[i])
    ensures Scan(c, i, doomed).crowd == Scan(Pop(c, i), i + 1, doomed).crowd
    ensures Scan(c, i, doomed).visited == [c.birds[i]] + Scan(Pop(c, i), i + 1, doomed).visited
    ensures Scan(c, i, doomed).culled == [c.ge[i]] + Scan(Pop(c, i), i + 1, doomed).culled
  {
  }

  /** One step of `Scan` when the bird it looks at stays. */
  lemma ScanKeeps<N>(c: Crowd<N>, i: nat, doomed: Bird -> bool)
    requires Lockstep(c) && i < |c.birds| && !doomed(c.birds[i])
    ensures Scan(c, i, doomed).crowd == Scan(c, i + 1, doomed).crowd
    ensures Scan(c, i, doomed).visited == [c.birds[i]] + Scan(c, i + 1, doomed).visited
    ensures Scan(c, i, doomed).culled == Scan(c, i + 1, doomed).culled
  {
  }

  /** A pass pops exactly the birds it looks at and finds doomed, and the
      genomes it reports are exactly the ones that left the lists. */
  lemma {:induction false} ScanAccounts<N>(c: Crowd<N>, i: nat, doomed: Bird -> bool)
    requires Lockstep(c)
    ensures |Scan(c, i, doomed).culled| == DoomedCount(Scan(c, i, doomed).visited, doomed)
    ensures multiset(Scan(c, i, doomed).crowd.ge) + multiset(Scan(c, i, doomed).culled) == multiset(c.ge)
    decreases |c.birds| - i
  {
    if i < |c.birds| {
      var s := Scan(c, i, doomed);
      if doomed(c.birds[i]) {
        ScanPops(c, i, doomed);
        ScanAccounts(Pop(c, i), i + 1, doomed);
        var rest := Scan(Pop(c, i), i + 1, doomed);
        assert s.visited[1..] == rest.visited;
        assert multiset(s.culled) == multiset{c.ge[i]} + multiset(rest.culled);
      } else {
        ScanKeeps(c, i, doomed);
        ScanAccounts(c, i + 1, doomed);
        assert s.visited[1..] == Scan(c, i + 1, doomed).visited;
      }
    }
  }

  /** A pass never touches the slots before the one it starts from. */
  lemma {:induction false} ScanKeepsPrefix<N>(c: Crowd<N>, i: nat, doomed: Bird -> bool)
    requires Lockstep(c) && i <= |c.birds|
    ensures |Scan(c, i, doomed).crowd.birds| >= i
    ensures Scan(c, i, doomed).crowd.birds[..i] == c.birds[..i]
    ensures Scan(c, i, doomed).crowd.ge[..i] == c.ge[..i]
    decreases |c.birds| - i, 1
  {
    if i < |c.birds| {
      if doomed(c.birds[i]) {
        PrefixAfterPop(c, i, doomed);
      } else {
        PrefixAfterKeep(c, i, doomed);
      }
    }
  }

  lemma {:induction false} PrefixAfterPop<N>(c: Crowd<N>, i: nat, doomed: Bird -> bool)
    requires Lockstep(c) && i < |c.birds| && doomed(c.birds[i])
    ensures |Scan(c, i, doomed).crowd.birds| >= i
    ensures Scan(c, i, doomed).crowd.birds[..i] == c.birds[..i]
    ensures Scan(c, i, doomed).crowd.ge[..i] == c.ge[..i]
    decreases |c.birds| - i, 0
  {
    var p := Pop(c, i);
    ScanPops(c, i, doomed);
    var s := Scan(p, i + 1, doomed).crowd;
    if i + 1 <= |p.birds| {
      ScanKeepsPrefix(p, i + 1, doomed);
      PrefixOfPrefix(s.birds, p.birds, i);
      PrefixOfPrefix(s.ge, p.ge, i);
    } else {
      ScanPastEnd(p, i + 1, doomed);
    }
    assert p.birds[..i] == c.birds[..i];
    assert p.ge[..i] == c.ge[..i];
  }

  lemma {:induction false} PrefixAfterKeep<N>(c: Crowd<N>, i: nat, doomed: Bird -> bool)
    requires Lockstep(c) && i < |c.birds| && !doomed(c.birds[i])
    ensures |Scan(c, i, doomed).crowd.birds| >= i
    ensures Scan(c, i, doomed).crowd.birds[..i] == c.birds[..i]
    ensures Scan(c, i, doomed).crowd.ge[..i] == c.ge[..i]
    decreases |c.birds| - i, 0
  {
    ScanKeeps(c, i, doomed);
    var s := Scan(c, i + 1, doomed).crowd;
    ScanKeepsPrefix(c, i + 1, doomed);
    PrefixOfPrefix(s.birds, c.birds, i);
    PrefixOfPrefix(s.ge, c.ge, i);
  }

  /** Agreeing on the first `i + 1` entries implies agreeing on the first `i`. */
  lemma PrefixOfPrefix<T>(a: seq<T>, b: seq<T>, i: nat)
    requires i + 1 <= |a| && i + 1 <= |b| && a[..i + 1] == b[..i + 1]
    ensures a[..i] == b[..i]
  {
    assert a[..i] == a[..i + 1][..i];
    assert b[..i] == b[..i + 1][..i];
  }

  /** The enumerate-with-pop skip: when the bird in slot `i` is popped, its
      successor slides into slot `i`, is never looked at in this pass (the
      pass looks next at the bird two slots on), and so stays in slot `i`
      whether it is doomed or not. */
  lemma SkipAfterPop<N>(c: Crowd<N>, i: nat, doomed: Bird -> bool)
    requires Lockstep(c) && i + 1 < |c.birds| && doomed(c.birds[i])
    ensures i < |Scan(c, i, doomed).crowd.birds|
    ensures Scan(c, i, doomed).crowd.birds[i] == c.birds[i + 1]
    ensures Scan(c, i, doomed).crowd.ge[i] == c.ge[i + 1]
    ensures i + 2 < |c.birds| ==> |Scan(c, i, doomed).visited| >= 2 && Scan(c, i, doomed).visited[1] == c.birds[i + 2]
  {
    var popped := Pop(c, i);
    ScanPops(c, i, doomed);
    ScanKeepsPrefix(popped, i + 1, doomed);
    var s := Scan(popped, i + 1, doomed).crowd;
    assert s.birds[..i + 1][i] == popped.birds[..i + 1][i];
    assert s.ge[..i + 1][i] == popped.ge[..i + 1][i];
    if i + 2 < |c.birds| {
      ScanPops(c, i, doomed);
      assert Scan(popped, i + 1, doomed).visited[0] == popped.birds[i + 1];
    }
  }

  /** Two players that both deserve to be popped in the same pass: only the
      first one is popped (and only its genome is reported), the second one
      survives the pass. */
  lemma BothDoomedOneSurvives<N>(b1: Bird, b2: Bird, n1: N, n2: N, g1: nat, g2: nat, doomed: Bird -> bool)
    requires doomed(b1) && doomed(b2)
    ensures Scan(Crowd([b1, b2], [n1, n2], [g1, g2]), 0, doomed).crowd == Crowd([b2], [n2], [g2])
    ensures Scan(Crowd([b1, b2], [n1, n2], [g1, g2]), 0, doomed).culled == [g1]
  {
    var c := Crowd([b1, b2], [n1, n2], [g1, g2]);
    var popped := Crowd([b2], [n2], [g2]);
    PopFirstOfTwo(b1, b2, n1, n2, g1, g2);
    ScanPops(c, 0, doomed);
    ScanPastEnd(popped, 1, doomed);
  }

  lemma PopFirstOfTwo<N>(b1: Bird, b2: Bird, n1: N, n2: N, g1: nat, g2: nat)
    ensures Pop(Crowd([b1, b2], [n1, n2], [g1, g2]), 0) == Crowd([b2], [n2], [g2])
  {
    assert RemoveAt([b1, b2], 0) == [b2];
    assert RemoveAt([n1, n2], 0) == [n2];
    assert RemoveAt([g1, g2], 0) == [g2];
  }

  /** A pass that starts past the last slot does nothing. */
  lemma ScanPastEnd<N>(c: Crowd<N>, i: nat, doomed: Bird -> bool)
    requires Lockstep(c) && i >= |c.birds|
    ensures Scan(c, i, doomed) == Swept(c, [], [])
  {
  }

  /** Popping in lockstep keeps every network next to its genome. */
  lemma PopKeepsPairing<N>(c: Crowd<N>, i: nat, netOf: seq<N>)
    requires Lockstep(c) && i < |c.birds| && Paired(c, netOf)
    ensures Paired(Pop(c, i), netOf)
  {
  }

  /** Popping keeps the genome handles in increasing order. */
  lemma PopKeepsOrder<N>(c: Crowd<N>, i: nat)
    requires Lockstep(c) && i < |c.birds| && Increasing(c.ge)
    ensures Increasing(Pop(c, i).ge)
  {
  }

  /** A whole pass keeps every network next to its genome, and the genomes
      in their original order. */
  lemma {:induction false} ScanKeepsPairing<N>(c: Crowd<N>, i: nat, doomed: Bird -> bool, netOf: seq<N>)
    requires Lockstep(c)
    ensures Paired(c, netOf) ==> Paired(Scan(c, i, doomed).crowd, netOf)
    ensures Increasing(c.ge) ==> Increasing(Scan(c, i, doomed).crowd.ge)
    decreases |c.birds| - i
  {
    if i < |c.birds| {
      if doomed(c.birds[i]) {
        if Paired(c, netOf) {
          PopKeepsPairing(c, i, netOf);
        }
        if Increasing(c.ge) {
          PopKeepsOrder(c, i);
        }
        ScanKeepsPairing(Pop(c, i), i + 1, doomed, netOf);
      } else {
        ScanKeepsPairing(c, i + 1, doomed, netOf);
      }
    }
  }

  /** In an increasing list every genome occurs at most once. */
  lemma {:induction false} IncreasingOnce(ge: seq<nat>, g: nat)
    requires Increasing(ge)
    ensures multiset(ge)[g] == (if g in ge then 1 else 0)
    decreases |ge|
  {
    if |ge| > 0 {
      assert ge == [ge[0]] + ge[1..];
      assert Increasing(ge[1..]);
      IncreasingOnce(ge[1..], g);
      if g == ge[0] {
        assert g !in ge[1..];
      }
    }
  }

  /** Some player of `c` flies bird `b` for genome `g`. */
  predicate Plays<N>(c: Crowd<N>, b: Bird, g: nat)
  {
    exists k :: 0 <= k < |c.birds| && k < |c.ge| && c.birds[k] == b && c.ge[k] == g
  }

  /** Every player of `d` (bird with its genome) is a player of `c`. */
  predicate Within<N>(d: Crowd<N>, c: Crowd<N>)
  {
    forall k :: 0 <= k < |d.birds| && k < |d.ge| ==> Plays(c, d.birds[k], d.ge[k])
  }

  /** Popping only removes players. */
  lemma PopWithin<N>(c: Crowd<N>, i: nat)
    requires Lockstep(c) && i < |c.birds|
    ensures Within(Pop(c, i), c)
  {
    var d := Pop(c, i);
    forall k | 0 <= k < |d.birds| && k < |d.ge|
      ensures Plays(c, d.birds[k], d.ge[k])
    {
      var j := if k < i then k else k + 1;
      assert c.birds[j] == d.birds[k] && c.ge[j] == d.ge[k];
    }
  }

  /** Being among the players of another crowd is transitive. */
  lemma WithinTrans<N>(e: Crowd<N>, d: Crowd<N>, c: Crowd<N>)
    requires Within(e, d) && Within(d, c)
    ensures Within(e, c)
  {
    forall k | 0 <= k < |e.birds| && k < |e.ge|
      ensures Plays(c, e.birds[k], e.ge[k])
    {
      assert Plays(d, e.birds[k], e.ge[k]);
      var j :| 0 <= j < |d.birds| && j < |d.ge| && d.birds[j] == e.birds[k] && d.ge[j] == e.ge[k];
      assert Plays(c, d.birds[j], d.ge[j]);
    }
  }

  /** A pass keeps only players it started with, and every genome it reports
      belongs to a player whose bird is doomed. */
  lemma {:induction false} ScanCulprits<N>(c: Crowd<N>, i: nat, doomed: Bird -> bool)
    requires Lockstep(c)
    ensures Within(Scan(c, i, doomed).crowd, c)
    ensures forall g :: g in Scan(c, i, doomed).culled ==> exists b :: Plays(c, b, g) && doomed(b)
    decreases |c.birds| - i
  {
    var s := Scan(c, i, doomed);
    if i >= |c.birds| {
      ScanPastEnd(c, i, doomed);
      forall k | 0 <= k < |c.birds| && k < |c.ge|
        ensures Plays(c, c.birds[k], c.ge[k])
      {
      }
    } else if doomed(c.birds[i]) {
      var p := Pop(c, i);
      ScanPops(c, i, doomed);
      ScanCulprits(p, i + 1, doomed);
      PopWithin(c, i);
      WithinTrans(s.crowd, p, c);
      forall g | g in s.culled
        ensures exists b :: Plays(c, b, g) && doomed(b)
      {
        if g == c.ge[i] {
          assert Plays(c, c.birds[i], g);
        } else {
          assert g in Scan(p, i + 1, doomed).culled;
          var b :| Plays(p, b, g) && doomed(b);
          var k :| 0 <= k < |p.birds| && k < |p.ge| && p.birds[k] == b && p.ge[k] == g;
          assert Plays(c, p.birds[k], p.ge[k]);
        }
      }
    } else {
      ScanKeeps(c, i, doomed);
      ScanCulprits(c, i + 1, doomed);
    }
  }

  /** A pass over birds none of which is doomed changes nothing. */
  lemma {:induction false} ScanHarmless<N>(c: Crowd<N>, i: nat, doomed: Bird -> bool)
    requires Lockstep(c)
    requires forall k :: i <= k < |c.birds| ==> !doomed(c.birds[k])
    ensures Scan(c, i, doomed).crowd == c && Scan(c, i, doomed).culled == []
    decreases |c.birds| - i
  {
    if i < |c.birds| {
      ScanKeeps(c, i, doomed);
      ScanHarmless(c, i + 1, doomed);
    }
  }
  /** Slots `i` to `k - 1` hold no doomed bird, so a pass from `i` just walks
      past them: it ends as a pass from `k` does. */
  lemma {:induction false} ScanSkipsSafe<N>(c: Crowd<N>, i: nat, k: nat, doomed: Bird -> bool)
    requires Lockstep(c) && i <= k <= |c.birds|
    requires forall j :: i <= j < k ==> !doomed(c.birds[j])
    ensures Scan(c, i, doomed).crowd == Scan(c, k, doomed).crowd
    ensures Scan(c, i, doomed).culled == Scan(c, k, doomed).culled
    decreases k - i
  {
    if i < k {
      ScanKeeps(c, i, doomed);
      ScanSkipsSafe(c, i + 1, k, doomed);
    }
  }

  /** The first doomed bird of the list is always looked at, so its player is
      the first one popped; with each genome listed once, that genome is gone
      after the pass. */
  lemma ScanRemovesFirst<N>(c: Crowd<N>, k: nat, doomed: Bird -> bool)
    requires Lockstep(c) && k < |c.birds| && doomed(c.birds[k])
    requires forall j :: 0 <= j < k ==> !doomed(c.birds[j])
    ensures |Scan(c, 0, doomed).culled| > 0 && Scan(c, 0, doomed).culled[0] == c.ge[k]
    ensures Increasing(c.ge) ==> c.ge[k] !in Scan(c, 0, doomed).crowd.ge
  {
    var p := Pop(c, k);
    ScanSkipsSafe(c, 0, k, doomed);
    ScanPops(c, k, doomed);
    var rest := Scan(p, k + 1, doomed);
    if Increasing(c.ge) {
      var g := c.ge[k];
      ScanAccounts(p, k + 1, doomed);
      IncreasingOnce(c.ge, g);
      assert multiset(p.ge)[g] == 0;
      assert multiset(rest.crowd.ge)[g] == 0;
    }
  }
  /** The genomes of players among the players of `c` are genomes of `c`. */
  lemma WithinGenomes<N>(d: Crowd<N>, c: Crowd<N>)
    requires Lockstep(d) && Within(d, c)
    ensures forall g :: g in d.ge ==> g in c.ge
  {
    forall g | g in d.ge
      ensures g in c.ge
    {
      var m :| 0 <= m < |d.ge| && d.ge[m] == g;
      assert Plays(c, d.birds[m], g);
    }
  }
}
